=== FILE: README.md ===
# MultiCombobox state machine in Dafny

`<multi-combobox>` is a form-associated custom element (`combobox.js`). It
turns its light-DOM `<li data-id>` children into a searchable list box. It
runs in single or multiple selection mode, with optional tags for the
selected options. Two autocomplete policies are available: `list` filters the
options, any other value moves the cursor to the first match.

This project models the engine behind the element as pure Dafny functions
over one immutable `Combobox.State`. The engine keeps four things:
- the option catalog (`optionsData`);
- the visible options;
- the current option (the keyboard cursor);
- the selection (`selectedOptions` and `selectedOption`) and the tags keyed by
  label.

Besides these the state holds the committed value, the input text, the `open`
attribute, the `valueMissing` validity flag, the `selectedAlreadySet` flag and
the `console.error` diagnostics.

Modules:
- `Base`: options, results, `findIndex`, removal from an insertion-ordered map,
  the subsequence relation.
- `Catalog`: option records, authoring entries, diagnostics, lookups by id and
  by label.
- `Selection`: `updateSelectedOptions`.
- `Tags`: `setTag`.
- `Navigation`: the visible-option getters.
- `Text`: `includes`, `trim`, printable keys and an approximation of
  `normalizeString`.
- `Filtering`: the two filtering policies.
- `Attributes`: how attribute text becomes `props`.
- `Combobox`: the state, its invariant `Valid` and the shared transitions.
- `Registration`: `generateOptions`, `registerOption` and `connectedCallback`.
- `Controller`: the event handlers and the event loop `Run`.
- `Mirror`: the agreement between record flags, selection and tags.
- `Scenarios`: worked examples.

`Valid` is the invariant of every reachable state. It says:
- ids are unique;
- the visible options are a subsequence of the catalog;
- the cursor and the selection name registered options;
- single mode holds at most one selection and at most one default;
- `valueMissing` is exactly "required and nothing selected";
- every tag names a registered option.

Every handler is proved to keep `Valid`.

The normaliser is a parameter of every filtering operation. The filtering
properties therefore hold for any normaliser. `Text.Normalize` is used only
by the scenarios.

Behaviours of the code worth knowing:
- Closing the list box restores the input text to the committed value in both
  modes, not only in single mode. In single mode the cursor falls back to the
  selected option instead of becoming empty (`Combobox.Close`).
- With more than one default-selected option in single mode, the first keeps
  the default. The diagnostic is emitted only for a later option whose
  `selected` attribute is non-empty. The default slot is taken before the
  duplicate-id test, so a discarded duplicate can take it and leave nothing
  selected (`Registration.DuplicateTakesDefault`).
- `tags` without `multiple` is a thrown error, not a diagnostic
  (`Registration.Connect`).
- ArrowUp on an open list box can throw when the cursor is hidden: in
  multiple mode always, in single mode when nothing is selected
  (`Controller.ArrowUpHiddenCursorThrows`). In single mode a hidden selected
  cursor stays where it is (`Controller.ArrowUpHiddenCursor`).
- Outside list mode an arrow key on a closed list box first moves the cursor
  to the first matching option, and the move then starts from there: ArrowDown
  steps over the match (`Controller.ArrowDownSkipsFirstMatch`).
- Escape on a closed list box deletes the value. In multiple mode this keeps
  the selection (`Controller.Escape`).
- Tags agree with the selection only while labels are unique. With a shared
  label they drift apart (`Mirror.SharedLabelBreaksMirror`).
- The catalog has no removal operation.

## Model

| member | source | states |
|---|---|---|
| Attributes.BooleanProp | combobox.js:160-162 | a boolean prop is on exactly for "", "true" or the attribute's own name; every other text and an absent attribute give off |
| Attributes.AutocompleteProp | combobox.js:177-181 | list filtering is chosen exactly by the text "list"; any other text and an absent attribute select the first-match policy |
| Base.FindIndex | combobox.js:330-332 | the index returned is the first element satisfying the predicate, or -1 exactly when none does |
| Base.IndexOf | combobox.js:341-343 | -1 exactly when the element is absent; otherwise its position, which is its only one when there are no repeats |
| Base.Remove | combobox.js:627 | deleting a key removes it, keeps every other key, and the remaining keys keep their insertion order (the result is a subsequence of the input) |
| Base.RemoveAbsent | combobox.js:627 | deleting a key that is not present leaves the map unchanged |
| Base.RemoveAppended | combobox.js:625-627 | deleting the key inserted last restores the earlier key order |
| Catalog.IndexOfId | combobox.js:498 | lookup by id finds the record with that id, -1 exactly when none has it, and it is the only such record under unique ids |
| Catalog.LabelOf | combobox.js:778 | under unique ids, the label read for an option is the label of its own record |
| Catalog.IndexOfLabel | combobox.js:639 | lookup by label finds the FIRST record with that label, or -1 exactly when no record has it |
| Selection.Update | combobox.js:616-629 | no option empties the selection; an unselected option is added (replacing everything in single mode, appended in multiple mode); a selected one is removed, the remaining options keep their order and the single-mode field is cleared; keys stay distinct and single mode keeps its shape |
| Selection.MultipleToggles | combobox.js:616-629 | in multiple mode an update flips the given option's membership and keeps every other option's |
| Selection.UpdateAddsOne | combobox.js:620-625 | adding an option in multiple mode leaves every other option's membership unchanged |
| Selection.MultipleToggleTwice | combobox.js:616-629 | in multiple mode, selecting then deselecting an option restores the selection, order included |
| Selection.SingleToggleTwice | combobox.js:616-629 | in single mode, selecting an unselected option twice leaves nothing selected |
| Tags.SetTag | combobox.js:732-755 | tags off: nothing changes. force true: the tag exists and an existing one is kept. force false: the tag is gone. No force: presence flips. Every other label's tag is untouched |
| Tags.ForceOnIdempotent | combobox.js:738-742 | forcing a tag on twice leaves exactly the one tag the first call made |
| Tags.ForceOffMissing | combobox.js:743-747 | forcing a missing tag off changes nothing |
| Tags.ToggleTwice | combobox.js:748-753 | toggling a tag twice restores the set of tagged labels, and the whole map when the tag was absent |
| Navigation.FirstVisible | combobox.js:317-319 | an option exactly when some option is visible, and it is the first |
| Navigation.LastVisible | combobox.js:321-323 | an option exactly when some option is visible, and it is the last |
| Navigation.NextVisible | combobox.js:325-334 | the successor of the cursor among the visible options; wraps to the first from the last, from no cursor and from a hidden cursor |
| Navigation.PreviousVisible | combobox.js:336-345 | the predecessor of the cursor, wrapping to the last from the first or from no cursor; no option for a hidden cursor (index -2 reads `undefined`) |
| Navigation.NextPreviousInverse | combobox.js:325-345 | from a visible option, moving down then up (or up then down) returns to it |
| Text.IncludesIff | combobox.js:574-576 | `includes` holds exactly when the needle occurs at some position of the text |
| Text.IncludesNeedsFirst | combobox.js:574-576 | a needle whose first character the text lacks is not included |
| Text.IncludesEmpty | combobox.js:574-576 | the empty needle is included in every text |
| Text.LowerChar | combobox.js:418 | `A`-`Z` map to `a`-`z` letter for letter, Œ maps to œ and Æ to æ; the result is never upper case and every other character is fixed (an ASCII-and-ligature table, narrower than `toLowerCase`) |
| Text.Lower | combobox.js:418 | lower-casing maps each character by the character mapping, position for position, so the length is kept, no character of the table's upper case remains, and text without such characters is fixed |
| Text.TrimStart | combobox.js:419 | what is dropped at the front is white space, and the result starts with a non-blank character |
| Text.TrimEnd | combobox.js:419 | what is dropped at the back is white space, and the result ends with a non-blank character |
| Text.Trim | combobox.js:419 | the result is a contiguous piece of the input, everything dropped before and after it is white space, it is non-blank at both ends, and text already non-blank at both ends is unchanged |
| Text.ExpandLigatures | combobox.js:421-430 | the ligature branch of the replacement: no ligature remains, and text without ligatures is unchanged |
| Text.ExpandLigaturesAppend | combobox.js:421-430 | the replacement works character by character: expanding a concatenation expands each part |
| Text.ExpandLigaturesSingle | combobox.js:421-426 | a single character expands to œ → "oe", æ → "ae", and to itself otherwise (the diacritic branch is not modelled) |
| Text.Normalize | combobox.js:416-431 | the result is normalised: no upper case, no ligature, no white space at either end |
| Text.NormalizeFixesNormalized | combobox.js:416-431 | normalised text is a fixed point of the model's normaliser |
| Text.NormalizeIdempotent | combobox.js:416-431 | with the model's normaliser, normalising twice equals normalising once |
| Text.NormalizeBlank | combobox.js:418-419 | a text of white space only normalises to the empty text |
| Text.NormalizeLigatures | combobox.js:421-428 | "Œuvre" normalises to "oeuvre", and the empty text stays empty |
| Filtering.ListFilter | combobox.js:569-580 | the visible options of list mode come from the catalog in registration order |
| Filtering.ListFilterMembers | combobox.js:572-581 | a record is visible after list filtering exactly when its normalised label contains the normalised input |
| Filtering.ListFilterEmptyInput | combobox.js:572-581 | an input that normalises to empty shows the whole catalog in order |
| Filtering.FirstMatch | combobox.js:572-585 | inline mode picks the first matching record and stops; -1 exactly when nothing matches |
| Filtering.ExactMatch | combobox.js:832-836 | Enter's fallback picks the first record whose normalised label equals the normalised input; -1 exactly when none does |
| Combobox.VisibleNoDup | combobox.js:552-558 | in a valid state the visible options are registered and free of repeats |
| Combobox.ChangeCurrent | combobox.js:592-610 | the cursor moves to the given option; clearing it empties it in multiple mode and falls back to the selected option in single mode; nothing else changes |
| Combobox.SetRequiredValidity | combobox.js:231-237 | `valueMissing` holds exactly when the element is required and nothing is selected |
| Combobox.UpdateSelectedOptions | combobox.js:616-632 | the selection changes as the selection manager says, validity is recomputed, and nothing else changes |
| Combobox.FormValue | combobox.js:255-261 | the form value has one (name, id) pair per selected option, in selection order |
| Combobox.ResetVisible | combobox.js:552-558 | every registered option becomes visible in registration order, and the invariant holds |
| Combobox.FilterOptions | combobox.js:563-587 | filtering changes only the visible options and the cursor; with `noFilter` every option is visible again |
| Combobox.FilterListMode | combobox.js:569-581 | in list mode exactly the matching options stay visible, in catalog order, and nothing else changes |
| Combobox.FilterInlineMode | combobox.js:582-585 | outside list mode the visible options stay; the first match becomes the cursor; with no match nothing changes |
| Combobox.Close | combobox.js:686-690 | closing restores the input to the committed value; the cursor is cleared, or falls back to the selection in single mode |
| Combobox.SetOpen | combobox.js:273-279 | assigning `open` sets the flag; removing a present attribute closes the list box, removing an absent one does nothing |
| Combobox.DeleteValue | combobox.js:652-660 | value and input are emptied, all options are visible, the cursor is cleared; single mode drops the selection and multiple mode keeps it |
| Combobox.ValidateOption | combobox.js:637-650 | committing flips the option's membership. Multiple mode keeps every other membership, the value and the list box. Single mode sets the value to the label, selects the option alone or nothing, and closes; closing an open list box restores the input to the new value and puts the cursor on the selected option, while a closed one keeps input and cursor. Validity is recomputed |
| Combobox.ValidateOptionByLabel | combobox.js:637-650 | the record changed is the FIRST one carrying the committed option's label: in multiple mode exactly its flag flips, and in both modes that label's tag is toggled with that record's id |
| Combobox.ToggleTag | combobox.js:649 | the committed label's tag is toggled and nothing else changes |
| Combobox.ToggleMultiple | combobox.js:640-643 | record k's flag flips and no other record changes; the option's selection is toggled |
| Combobox.ToggleMultipleCatalog | combobox.js:642 | the catalog after the multiple-mode toggle is the old one with only record k's flag flipped |
| Combobox.CommitSingle | combobox.js:644-647 | the label becomes the value, the selection is toggled, and the list box closes; from an open list box the input shows the new value and the cursor is the selected option (or none), from a closed one input and cursor stay; the diagnostics and the default flag are untouched |
| Registration.Append | combobox.js:505-537 | a fresh record is appended to the catalog and to the visible options, and the invariant holds |
| Registration.SelectDefault | combobox.js:526-533 | a default-selected option is selected; in single mode it also becomes the value, the input text and the cursor; the list box is untouched |
| Registration.ForceTag | combobox.js:545 | with tags on, the label has a tag exactly when the option is selected; other labels keep theirs |
| Registration.RegisterOption | combobox.js:514-546 | the record is appended; the option is selected exactly when default-selected; the list box is untouched, and unless a single-mode default is committed the value, input text and cursor stay; an unselected one leaves the selection alone; the label's tag follows the flag |
| Registration.NoteDefault | combobox.js:483-497 | the extra-default diagnostic is logged only once the default is taken and the attribute is non-empty; single mode takes the default at the first `selected` attribute; once taken, later records are unflagged |
| Registration.RegisterWellFormed | combobox.js:483-507 | a taken id logs a duplicate diagnostic naming both labels and adds nothing; a fresh id is registered; the default slot is taken either way |
| Registration.RegisterEntry | combobox.js:470-508 | a non-`LI` or an entry without `data-id` is reported and dropped; an entry adds at most its own record; an entry that adds nothing leaves a diagnostic |
| Registration.GenerateOptions | combobox.js:469-509 | the catalog grows only at the end, by at most one record per entry, and every entry adds a record or a diagnostic |
| Registration.GenerateOptionsAppend | combobox.js:764-771 | registering a batch in two parts equals registering it at once, so an observed mutation continues where connection stopped |
| Registration.Initial | combobox.js:14-48 | the element starts valid, empty, unselected, without tags, with no value and closed |
| Registration.Connect | combobox.js:49-119 | connection fails exactly for `tags` without `multiple`; otherwise the state is valid, keeps the configuration, and has at most one record per entry |
| Registration.ConnectOneDefault | combobox.js:488-545 | one default-selected entry is registered flagged and selected, with its tag when tags are on |
| Registration.FirstDefault | combobox.js:488-545 | the first registration of a default-selected entry selects it, flags it and tags it when tags are on |
| Registration.ConnectSingleDefault | combobox.js:483-497 | in single mode at most one record is flagged and at most one option selected, whatever the entries say |
| Registration.RegisterUnselected | combobox.js:488-507 | a fresh entry without the default is registered unflagged, silently, and leaves the selection alone |
| Registration.RegisterDefault | combobox.js:491-533 | the first default-selected fresh entry is registered flagged and selected; in single mode it also becomes the value, input text and cursor |
| Registration.RegisterDuplicate | combobox.js:498-504 | an entry with a taken id only logs the duplicate diagnostic, naming the kept and discarded labels |
| Registration.RegisterDuplicateDefault | combobox.js:493-504 | a default-selected duplicate is discarded but still takes the single-mode default slot |
| Registration.DuplicateTakesDefault | combobox.js:491-504 | with a plain option, its default-selected duplicate and a later `selected` option, both kept options end unflagged and nothing is selected |
| Registration.ConnectPlainPair | combobox.js:469-509 | two plain entries with distinct ids are registered unflagged, with nothing selected and no tags |
| Controller.Escape | combobox.js:792-797 | Escape closes the list box: an open one exactly as closing does (input restored to the value, cursor reset to the selection or none); when it was already closed the value is deleted too; multiple mode keeps the selection |
| Controller.PrepareArrow | combobox.js:804-806 | an open list box is untouched; a closed one in list mode shows every option again, and in the other modes is filtered, which puts the cursor on the first match |
| Controller.MoveTo | combobox.js:807-811 | the list box opens and the cursor moves to the target; with no target it becomes the selected option in single mode and none in multiple mode; the input shows the cursor's label, or the label lookup throws when there is no cursor |
| Controller.ArrowDown | combobox.js:802-812 | with visible options the cursor lands on a visible option whose label is shown; it is the successor of the cursor left by the refiltering (of the old cursor on an open list box); it never throws; when the refiltering leaves nothing visible, nothing else happens |
| Controller.ArrowDownClosedInline | combobox.js:802-812 | on a closed list box outside list mode the cursor lands on the successor of the first matching option |
| Controller.ArrowDownSkipsFirstMatch | combobox.js:582-584 | with every option visible and the first one matching, ArrowDown on a closed list box outside list mode lands on the second option |
| Controller.ArrowUp | combobox.js:813-823 | with visible options the list box opens; when the cursor left by the refiltering has a predecessor the cursor moves there, otherwise it falls back to the selected option in single mode and is cleared in multiple mode; the input shows the cursor's label, or a TypeError is logged when no cursor results; when nothing is visible after the refiltering, nothing else happens |
| Controller.ArrowUpClosedInline | combobox.js:813-823 | on a closed list box outside list mode the cursor lands on the predecessor of the first matching option when that option is visible |
| Controller.ArrowUpVisibleCursor | combobox.js:813-823 | on an open list box with a visible or no cursor, ArrowUp moves to the predecessor and does not throw |
| Controller.ArrowUpHiddenCursorThrows | combobox.js:813-823 | on an open list box a hidden cursor has no predecessor; in multiple mode, or in single mode with nothing selected, the cursor is cleared and the label lookup throws |
| Controller.ArrowUpHiddenCursor | combobox.js:336-345 | in single mode a hidden cursor on the selection stays put under ArrowUp, while ArrowDown moves to the first visible option |
| Controller.CommitCursorOrMatch | combobox.js:829-840 | Enter commits the cursor, else the first exact normalised match, else nothing |
| Controller.Enter | combobox.js:824-841 | an open list box commits at once; a closed one is first opened and filtered by the current input, then commits; ids and configuration stay |
| Controller.HandleKey | combobox.js:786-855 | Ctrl keys and unhandled keys change nothing; Tab closes exactly as assigning `open = false` does and keeps value and selection; the invariant holds |
| Controller.PrintableKeyOnlyFocuses | combobox.js:849-853 | a printable key changes no state |
| Controller.Retype | combobox.js:858-859 | the typed text becomes value and input; list mode shows the list filter of it and keeps the cursor; other modes keep the visible options and move the cursor to the first match, if any |
| Controller.DropHiddenCursor | combobox.js:861-863 | a visible or absent cursor is kept; a hidden cursor is cleared in multiple mode and falls back to the selected option in single mode |
| Controller.HandleInput | combobox.js:857-865 | the list box is open exactly when options are visible; value and input are the typed text; the selection is untouched; in list mode a cursor that stays visible is kept and a hidden one is cleared (multiple mode) or falls back to the selection (single mode); outside list mode the first match becomes the cursor |
| Controller.HandleOptionClick | combobox.js:776-781 | the click flips the option's membership; multiple mode keeps the others, puts the cursor on the option and shows its label; single mode commits the label and closes, so from an open list box the input shows the value and the cursor is the selected option, and from a closed one the cursor is the option and the input its label |
| Controller.HandleTagClick | combobox.js:885-887 | a tag's button commits the option whose id it carries, which flips that option's selection |
| Controller.HandleMutation | combobox.js:764-771 | only elements added under a `UL` are registered; the catalog only grows at its end |
| Controller.HandleRequired | combobox.js:171-176 | the required prop follows the attribute and validity is recomputed |
| Controller.Handle | combobox.js:764-891 | every event keeps the invariant, the configuration modes and the registered options |
| Controller.Run | combobox.js:764-891 | any sequence of events keeps the invariant and only extends the catalog |
| Controller.SingleModeExclusive | combobox.js:620-624 | in single mode at most one option is ever selected |
| Controller.ArrowDownThenUp | combobox.js:802-823 | on an open list box, ArrowDown then ArrowUp returns the cursor to a visible option |
| Mirror.LabelFindsOwnRecord | combobox.js:638-639 | under unique labels, lookup by an option's label finds its own record |
| Mirror.ValidateOptionMirror | combobox.js:637-650 | under unique labels, committing keeps flags, selection and tags in agreement |
| Mirror.FlagsToggle | combobox.js:640-643 | flipping a record's flag together with its option's selection keeps flags and selection in agreement |
| Mirror.TagsToggle | combobox.js:640-649 | flipping a record's flag, toggling its selection and its label's tag keeps tags and selection in agreement |
| Mirror.RegisterOptionMirror | combobox.js:514-546 | registering an option with a fresh label keeps the three views in agreement |
| Mirror.FlagsAppend | combobox.js:505-533 | appending a record selected exactly when flagged keeps flags and selection in agreement |
| Mirror.TagsAppend | combobox.js:505-545 | appending a fresh-labelled record whose tag follows its flag keeps tags and selection in agreement |
| Mirror.RegisterEntryMirror | combobox.js:470-508 | registering one entry keeps the views in agreement while labels stay unique |
| Mirror.GenerateOptionsMirror | combobox.js:469-509 | registering a batch keeps the views in agreement while labels stay unique |
| Mirror.EnterMirror | combobox.js:824-841 | Enter keeps the views in agreement under unique labels |
| Mirror.HandleKeyMirror | combobox.js:786-855 | every key keeps the views in agreement under unique labels |
| Mirror.OptionClickMirror | combobox.js:776-781 | an option click keeps the views in agreement under unique labels |
| Mirror.HandleMirror | combobox.js:764-891 | every event keeps the views in agreement when labels stay unique |
| Mirror.RunMirror | combobox.js:764-891 | any event sequence keeps the views in agreement when labels stay unique |
| Mirror.ConnectMirror | combobox.js:113-119 | a connected element with unique labels starts with its views in agreement |
| Mirror.SharedLabelBreaksMirror | combobox.js:638-649 | with two options sharing a label, clicking the second selects it, flags the first and tags the first's id, so the views disagree |
| Mirror.SharedLabelClick | combobox.js:638-649 | the click of the shared-label example, from any valid state with those two records |
| Mirror.ClickToggles | combobox.js:637-650 | in multiple mode a click flips the flag of the first record with the option's label, toggles the option's selection and toggles that label's tag |
| Mirror.SoleRecordClick | combobox.js:640-649 | on a sole record, a click flips its flag, its selection and its tag together |
| Mirror.DefaultClickDeselects | combobox.js:526-545 | a connected default-selected option is selected, flagged and tagged, and a click deselects, unflags and untags it together |
| Scenarios.BlankSearchShowsAll | combobox.js:572-581 | a search of white space only hides nothing in list mode |
| Scenarios.LigatureSearch | combobox.js:421-428 | searching "oeuvre" finds the option labelled "Œuvre" |
| Scenarios.ConnectFruitsSingle | combobox.js:526-531 | connecting "Apple" and a default-selected "Banana" in single mode makes "Banana" value, input text, cursor and selection |
| Scenarios.ConnectPlainThenDefault | combobox.js:488-533 | in single mode a later default-selected entry becomes value, input text, cursor and selection, with no diagnostic |
| Scenarios.NormalizeFruitWords | combobox.js:416-431 | "Apple", "Banana" and "ban" normalise to "apple", "banana" and "ban" |
| Scenarios.FruitsMatchingBan | combobox.js:569-580 | over the two fruits, "ban" matches only "Banana" |
| Scenarios.SearchBanThenArrowDown | combobox.js:857-865 | typing "ban" in list mode shows only "Banana" and opens the list box; ArrowDown then puts the cursor on it |
| Scenarios.ArrowDownSingleton | combobox.js:802-812 | with one visible option on an open list box, ArrowDown lands on it |
| Scenarios.DuplicateIdKeepsFirst | combobox.js:498-504 | a repeated id keeps the first option, reports both labels, and the connection succeeds |
| Scenarios.FruitClick | combobox.js:776-781 | a multiple-mode click keeps the views in agreement and changes only the clicked option's selection |
| Scenarios.ConnectFruitsMultiple | combobox.js:469-509 | "Apple" and "Banana" connect in multiple mode with tags: nothing selected, views in agreement |
| Scenarios.ConnectPlainPairMirrored | combobox.js:469-509 | two plain entries with distinct labels connect with the views in agreement |
| Scenarios.FruitViews | combobox.js:255-261 | with the views in agreement and only "2" selected, the one tag is "Banana" and the form value is one pair |
| Scenarios.ClicksFromEmpty | combobox.js:776-781 | clicking "1", "2", then "1" leaves "2" selected, one tag "Banana" and one form pair |
| Scenarios.ClickOneTwoOne | combobox.js:776-781 | the same three clicks after connecting the two fruits with tags |

## Left out

- Rendering: shadow DOM, stylesheet loading (`loadCSS`), element creation, CSS classes, list-box positioning, ARIA attributes and the delete button's visibility (`toggleDeleteButton`). None of them touches the modelled state.
- Focus: `focus`, `setFocusCombobox`, `setFocusListbox`, `focusOnListbox` and the `autofocus` attribute. The printable-key and navigation-key branches of the keyboard handler only move focus, so they leave the state unchanged.
- Event plumbing: the listener registry, `preventDefault`, `stopImmediatePropagation` and `disconnectedCallback`. The model takes one event at a time as a datatype value.
- Form association: `ElementInternals`, `setFormValue`, `checkValidity`, `reportValidity`, the validation message and `formDisabledCallback`. Only the `valueMissing` flag and the form-value pairs are modelled.
- Text.Normalize: it does not model NFKD decomposition or the removal of `\p{Diacritic}` characters, and lower-cases only ASCII letters and the two ligatures, because Unicode tables are outside the model. The engine takes the normaliser as a parameter, so no filtering property depends on this.
- Text.LowerChar: `toLowerCase` also maps every other Unicode upper-case letter (É to é, for instance); the model's table covers only `A`-`Z`, Œ and Æ, so "every other character is fixed" holds of the table, not of the source.
- Text.Lower: "no upper case remains" holds for the table's upper case only; the source lower-cases all of Unicode, which the model does not represent.
- Text.ExpandLigatures: the replacement at combobox.js:421-430 also deletes every `\p{Diacritic}` character; the model expands the two ligatures and keeps every other character.
- Text.ExpandLigaturesSingle: in the source a diacritic character becomes the empty text, not itself; only the ligature and plain-character cases are modelled.
- Text.NormalizeFixesNormalized: a property of the model's normaliser only. The source runs NFKD after `trim`, so it can produce upper case ("ℌ" becomes "H") and white space at an edge ("´" becomes " "); such text is not a fixed point of `normalizeString`.
- Text.NormalizeIdempotent: a property of the model's normaliser only. The source's `normalizeString` is not idempotent: "´" normalises to " ", which normalises to "".
- Text.IsPrintableCharacter: it assumes one Dafny character per BMP code unit; supplementary characters count as two code units and so are not printable.
- Runtime changes of `multiple`, `tags` and `autocomplete`: the model fixes them at connection; only `required` is modelled as an event. The code records a change in `props` and reads `props` again at every later event (`autocomplete` at combobox.js:569, 577, 805 and 816; `multiple` at 593, 621, 640 and 656; `tags` at 733), so a change takes effect at the next event. For instance, turning `multiple` off while two options are selected leaves both selected in single mode. `Controller.SingleModeExclusive` and the mode-dependent clauses of `Valid` (at most one selection and one default in single mode, tags only with `multiple`) therefore hold only for a configuration that does not change after connection.
- The `placeholder` attribute: it is not part of `props`; a change is only copied to the search input's attribute (combobox.js:182-184), which the model does not represent.
- The `open` attribute written from outside: the model changes it only through the component's own handlers and the `open` property.
- Mutation records: a record's added nodes arrive already filtered to elements, and removed nodes are ignored as in the source.
- Option removal: the catalog can only grow, because the code has no removal operation.
- Tag display order and the DOM removal of rejected `li` children: neither is observable through the modelled state.

=== FILE: attributes.dfy ===
/** How `attributeChangedCallback` (combobox.js:159-188) turns attribute
    text into the element's `props`. */
module Attributes {
  import opened Base
  import opened Combobox

  /** `updateBooleanProp`: `["true", "", name].includes(newValue)`, where a
      removed attribute arrives as `null`. */
  function BooleanProp(name: string, newValue: Option<string>): (on: bool)
    ensures on ==> newValue.Some?
    ensures newValue == Some("false") && name != "false" ==> !on
    ensures on <==> newValue == Some("") || newValue == Some("true") || newValue == Some(name)
  {
    match newValue
    case None => false
    case Some(v) => v == "true" || v == "" || v == name
  }

  /** The `autocomplete` prop: the attribute's text, "false" when it is
      absent. Only the exact text "list" selects list filtering; every other
      text, and the absence of the attribute, gives the cursor-moving
      behaviour. */
  function AutocompleteProp(newValue: Option<string>): (mode: Autocomplete)
    ensures mode == List <==> newValue == Some("list")
  {
    match newValue
    case None => Inline
    case Some(v) => if v == "list" then List else Inline
  }
}

=== FILE: base.dfy ===
/** Small generic building blocks shared by the combobox model: an optional
    value, a result type for errors, duplicate-freedom, JavaScript's
    `findIndex`, order-preserving removal and the subsequence relation. */
module Base {

  /** The source's nullable references (`null`/`undefined`) become `None`. */
  datatype Option<T> = None | Some(value: T)

  /** A thrown error becomes `Err`. */
  datatype Result<T, E> = Ok(value: T) | Err(error: E)

  predicate NoDup<T(==)>(s: seq<T>) {
    forall i, j :: 0 <= i < j < |s| ==> s[i] != s[j]
  }

  /** `Array.prototype.findIndex`: the position of the first element satisfying
      `p`, or -1 when there is none. */
  function FindIndex<T>(s: seq<T>, p: T -> bool): (i: int)
    ensures -1 <= i < |s|
    ensures 0 <= i ==> p(s[i]) && forall j :: 0 <= j < i ==> !p(s[j])
    ensures i == -1 ==> forall j :: 0 <= j < |s| ==> !p(s[j])
  {
    if |s| == 0 then -1
    else if p(s[0]) then 0
    else
      var k := FindIndex(s[1..], p);
      if k == -1 then -1 else k + 1
  }

  /** `findIndex((el) => el === x)`. */
  function IndexOf<T(==)>(s: seq<T>, x: T): (i: int)
    ensures -1 <= i < |s|
    ensures i == -1 <==> x !in s
    ensures 0 <= i ==> s[i] == x
    ensures NoDup(s) ==> forall j :: 0 <= j < |s| && s[j] == x ==> i == j
  {
    FindIndex(s, (y: T) => y == x)
  }

  /** Deletion of a key from an insertion-ordered map, seen on its key order:
      the key is gone, every other key stays, and the remaining keys keep
      their order. */
  function Remove<T(==,!new)>(s: seq<T>, x: T): (r: seq<T>)
    ensures x !in r
    ensures forall y :: y != x ==> (y in r <==> y in s)
    ensures IsSubsequence(r, s)
    decreases |s|
  {
    if |s| == 0 then []
    else
      var init := s[..|s| - 1];
      var last := s[|s| - 1];
      var rest := Remove(init, x);
      assert s == init + [last];
      if last == x then
        SubsequenceExtend(rest, init, last);
        rest
      else
        SubsequenceSnoc(rest, init, last);
        rest + [last]
  }

  /** Removing a key that is absent changes nothing. */
  lemma {:induction false} RemoveAbsent<T(!new)>(s: seq<T>, x: T)
    requires x !in s
    ensures Remove(s, x) == s
    decreases |s|
  {
    if |s| > 0 {
      assert s[|s| - 1] in s;
      RemoveAbsent(s[..|s| - 1], x);
      assert s[..|s| - 1] + [s[|s| - 1]] == s;
    }
  }

  /** Removing a key that was appended last restores the earlier order. */
  lemma RemoveAppended<T(!new)>(s: seq<T>, x: T)
    requires x !in s
    ensures Remove(s + [x], x) == s
  {
    assert (s + [x])[..|s|] == s;
    RemoveAbsent(s, x);
  }

  /** `a` can be obtained from `b` by deleting elements (order kept). The
      definition matches elements from the back, which is how the source
      builds its lists: by pushing. */
  predicate IsSubsequence<T(==)>(a: seq<T>, b: seq<T>)
    decreases |b|
  {
    if |a| == 0 then true
    else if |b| == 0 then false
    else if a[|a| - 1] == b[|b| - 1] then IsSubsequence(a[..|a| - 1], b[..|b| - 1])
    else IsSubsequence(a, b[..|b| - 1])
  }

  lemma {:induction false} SubsequenceRefl<T>(b: seq<T>)
    ensures IsSubsequence(b, b)
    decreases |b|
  {
    if |b| > 0 {
      SubsequenceRefl(b[..|b| - 1]);
    }
  }

  /** Pushing the same element onto both sides keeps the relation. */
  lemma SubsequenceSnoc<T>(a: seq<T>, b: seq<T>, x: T)
    requires IsSubsequence(a, b)
    ensures IsSubsequence(a + [x], b + [x])
  {
    assert (a + [x])[..|a|] == a;
    assert (b + [x])[..|b|] == b;
  }

  /** Pushing an element onto the larger side only keeps the relation. */
  lemma {:induction false} SubsequenceExtend<T>(a: seq<T>, b: seq<T>, y: T)
    requires IsSubsequence(a, b)
    ensures IsSubsequence(a, b + [y])
    decreases |b|, 1
  {
    assert (b + [y])[..|b|] == b;
    if |a| > 0 && a[|a| - 1] == y {
      SubsequenceDropLast(a, b);
    }
  }

  lemma {:induction false} SubsequenceDropLast<T>(a: seq<T>, b: seq<T>)
    requires |a| > 0 && IsSubsequence(a, b)
    ensures IsSubsequence(a[..|a| - 1], b)
    decreases |b|, 0
  {
    var a', b' := a[..|a| - 1], b[..|b| - 1];
    assert b == b' + [b[|b| - 1]];
    if a[|a| - 1] == b[|b| - 1] {
      SubsequenceExtend(a', b', b[|b| - 1]);
    } else {
      SubsequenceDropLast(a, b');
      SubsequenceExtend(a', b', b[|b| - 1]);
    }
  }

  /** Every element of a subsequence occurs in the sequence. */
  lemma {:induction false} SubsequenceMembers<T>(a: seq<T>, b: seq<T>)
    requires IsSubsequence(a, b)
    ensures forall x :: x in a ==> x in b
    decreases |b|
  {
    if |a| > 0 {
      var a', b' := a[..|a| - 1], b[..|b| - 1];
      assert a == a' + [a[|a| - 1]];
      assert b == b' + [b[|b| - 1]];
      if a[|a| - 1] == b[|b| - 1] {
        SubsequenceMembers(a', b');
      } else {
        SubsequenceMembers(a, b');
      }
    }
  }

  /** A subsequence of a duplicate-free sequence is duplicate-free. */
  lemma {:induction false} SubsequenceNoDup<T>(a: seq<T>, b: seq<T>)
    requires IsSubsequence(a, b) && NoDup(b)
    ensures NoDup(a)
    decreases |b|
  {
    if |a| > 0 {
      var a', b' := a[..|a| - 1], b[..|b| - 1];
      assert a == a' + [a[|a| - 1]];
      assert b == b' + [b[|b| - 1]];
      assert NoDup(b');
      if a[|a| - 1] == b[|b| - 1] {
        SubsequenceNoDup(a', b');
        SubsequenceMembers(a', b');
        assert b[|b| - 1] !in b';
      } else {
        SubsequenceNoDup(a, b');
      }
    }
  }
}

=== FILE: catalog.dfy ===
/** The option catalog: the records kept for each registered option (the
    source's `optionsData`), the authoring input they are built from, the
    diagnostics that registration reports, and lookups by id and by label. */
module Catalog {
  import opened Base

  /** An option's `data-id`. */
  type Id = string

  /** One `optionsData` record: `{id, value, selected}`. The source calls the
      label `value`; it is the option's text content, hence `text` here. */
  datatype OptionData = OptionData(id: Id, text: string, selected: bool)

  /** A light-DOM child offered for registration: its tag name, its `data-id`
      attribute (the empty text standing for an absent attribute, which the
      source treats alike), its text content, and its `selected` attribute. */
  datatype Entry = Entry(tagName: string, dataId: string, text: string, selectedAttr: Option<string>)

  /** What the source writes to `console.error`, plus the uncaught `TypeError`
      one keyboard path can raise. None of them changes any other state. */
  datatype Diagnostic =
    | NotListItem
    | MissingId
    | ExtraDefaultSelected
    | DuplicateId(id: Id, kept: string, discarded: string)
    | UncaughtTypeError

  /** The catalog's ids in registration order. */
  function Ids(cat: seq<OptionData>): (r: seq<Id>)
    ensures |r| == |cat|
    ensures forall i :: 0 <= i < |cat| ==> r[i] == cat[i].id
  {
    seq(|cat|, i requires 0 <= i < |cat| => cat[i].id)
  }

  /** The catalog's key invariant: ids are unique. */
  predicate UniqueIds(cat: seq<OptionData>) {
    NoDup(Ids(cat))
  }

  lemma IdsSnoc(cat: seq<OptionData>, o: OptionData)
    ensures Ids(cat + [o]) == Ids(cat) + [o.id]
  {
  }

  lemma IdsPrefix(cat: seq<OptionData>, n: nat)
    requires n <= |cat|
    ensures Ids(cat[..n]) == Ids(cat)[..n]
  {
  }

  /** Changing anything but the id of a record leaves the ids alone. */
  lemma IdsUpdate(cat: seq<OptionData>, k: nat, o: OptionData)
    requires k < |cat| && cat[k].id == o.id
    ensures Ids(cat[k := o]) == Ids(cat)
  {
  }

  /** `allOptions.get(id)`: the position of the record with this id. */
  function IndexOfId(cat: seq<OptionData>, id: Id): (k: int)
    ensures -1 <= k < |cat|
    ensures k == -1 <==> id !in Ids(cat)
    ensures 0 <= k ==> cat[k].id == id
    ensures UniqueIds(cat) ==> forall j :: 0 <= j < |cat| && cat[j].id == id ==> k == j
  {
    var k := FindIndex(cat, (o: OptionData) => o.id == id);
    assert k == -1 ==> forall j :: 0 <= j < |cat| ==> Ids(cat)[j] != id;
    assert 0 <= k ==> Ids(cat)[k] == id;
    k
  }

  /** The text content of the option element registered under `id`. */
  function LabelOf(cat: seq<OptionData>, id: Id): (text: string)
    requires id in Ids(cat)
    ensures UniqueIds(cat) ==> forall j :: 0 <= j < |cat| && cat[j].id == id ==> text == cat[j].text
  {
    cat[IndexOfId(cat, id)].text
  }

  /** `optionsData.find((item) => item.value === text)`: the FIRST record
      with this label, whichever option the label was read from. */
  function IndexOfLabel(cat: seq<OptionData>, text: string): (k: int)
    ensures -1 <= k < |cat|
    ensures 0 <= k ==> cat[k].text == text && forall j :: 0 <= j < k ==> cat[j].text != text
    ensures k == -1 <==> forall j :: 0 <= j < |cat| ==> cat[j].text != text
  {
    FindIndex(cat, (o: OptionData) => o.text == text)
  }

  /** No two records share a label. The source does not require this, but
      tags (keyed by label) and `validateOption` (which looks records up by
      label) only behave as one expects under it. */
  predicate UniqueLabels(cat: seq<OptionData>) {
    forall i, j :: 0 <= i < j < |cat| ==> cat[i].text != cat[j].text
  }

  /** `b` still holds the options of `a`, first and in the same order, with
      the same ids and labels: registration only appends and
      `validateOption` only flips `selected`. */
  predicate Extends(a: seq<OptionData>, b: seq<OptionData>) {
    && |a| <= |b|
    && forall i :: 0 <= i < |a| ==> b[i].id == a[i].id && b[i].text == a[i].text
  }

  lemma ExtendsTrans(a: seq<OptionData>, b: seq<OptionData>, c: seq<OptionData>)
    requires Extends(a, b) && Extends(b, c)
    ensures Extends(a, c)
  {
  }

  /** Labels stay unique in any part of a catalog that was extended to one
      with unique labels. */
  lemma UniqueLabelsExtends(a: seq<OptionData>, b: seq<OptionData>)
    requires Extends(a, b) && UniqueLabels(b)
    ensures UniqueLabels(a)
  {
  }
}

=== FILE: combobox.dfy ===
/** The state of one `MultiCombobox` element and the transitions its
    handlers are built from: cursor changes, selection updates with the
    required-value flag, filtering, closing the list box, deleting the value
    and committing an option.

    Every mutable field the source spreads over the element (`value`,
    `currentOption`, `selectedOptions`, `selectedOption`, `visibleOptions`,
    `tags`, the input's text, the `open` attribute, the `valueMissing`
    validity flag, `selectedAlreadySet`) is one field of `State`, and every
    transition returns a new `State`. */
module Combobox {
  import opened Base
  import opened Catalog
  import opened Filtering
  import opened Navigation
  import S = Selection
  import opened Tags

  /** The `autocomplete` prop as the code uses it: only "list" is ever
      tested for. `Inline` stands for every other value, the initial `false`
      included: the options are not filtered and the first match becomes the
      current option. */
  datatype Autocomplete = List | Inline

  /** The element's `props`. */
  datatype Config = Config(multiple: bool, tags: bool, autocomplete: Autocomplete, required: bool)

  datatype State = State(
    config: Config,
    catalog: seq<OptionData>,   // optionsData, in registration order
    visible: seq<Id>,           // visibleOptions
    current: Option<Id>,        // currentOption
    selection: S.Selection,     // selectedOptions and selectedOption
    tags: TagMap,               // tags
    value: string,              // value
    input: string,              // the search input's text (inputValue)
    open: bool,                 // presence of the `open` attribute
    valueMissing: bool,         // the validity flag set by setRequiredValidity
    defaultTaken: bool,         // selectedAlreadySet
    log: seq<Diagnostic>)       // console.error output

  /** Single mode's catalog shape: at most one record carries `selected`. */
  predicate AtMostOneDefault(cat: seq<OptionData>) {
    forall i, j :: 0 <= i < j < |cat| && cat[i].selected ==> !cat[j].selected
  }

  /** The invariant every connected element keeps between events. */
  ghost predicate Valid(s: State) {
    && (s.config.tags ==> s.config.multiple)
    && UniqueIds(s.catalog)
    && IsSubsequence(s.visible, Ids(s.catalog))
    && (s.config.autocomplete != List ==> s.visible == Ids(s.catalog))
    && (s.current.Some? ==> s.current.value in Ids(s.catalog))
    && NoDup(s.selection.ids)
    && (forall x :: x in s.selection.ids ==> x in Ids(s.catalog))
    && (if s.config.multiple then s.selection.sole.None? && !s.defaultTaken else S.SingleShape(s.selection))
    && (!s.config.multiple ==> AtMostOneDefault(s.catalog))
    && (!s.config.multiple ==> forall i :: 0 <= i < |s.catalog| && s.catalog[i].selected ==> s.defaultTaken)
    && s.valueMissing == (s.config.required && |s.selection.ids| == 0)
    && (!s.config.tags ==> s.tags == map[])
    && (forall l :: l in s.tags ==> s.tags[l] in Ids(s.catalog))
  }

  /** In a valid state the visible options are catalog ids without repeats. */
  lemma VisibleNoDup(s: State)
    requires Valid(s)
    ensures NoDup(s.visible)
    ensures forall x :: x in s.visible ==> x in Ids(s.catalog)
  {
    SubsequenceNoDup(s.visible, Ids(s.catalog));
    SubsequenceMembers(s.visible, Ids(s.catalog));
  }

  // ---------------------------------------------------------------------------
  // Cursor, validity, selection
  // ---------------------------------------------------------------------------

  /** `changeCurrentOption` without its ARIA and focus side effects. In
      single mode, clearing the cursor puts it back on the selected option. */
  function ChangeCurrent(s: State, option: Option<Id>): (r: State)
    requires Valid(s) && (option.Some? ==> option.value in Ids(s.catalog))
    ensures Valid(r)
    ensures r == s.(current := r.current)
    ensures option.Some? ==> r.current == option
    ensures option.None? && s.config.multiple ==> r.current.None?
    ensures option.None? && !s.config.multiple ==> r.current == s.selection.sole
  {
    if s.config.multiple then s.(current := option)
    else if option.Some? then s.(current := option)
    else s.(current := s.selection.sole)
  }

  /** `setRequiredValidity`, keeping only the `valueMissing` flag. */
  function SetRequiredValidity(s: State): (r: State)
    ensures r == s.(valueMissing := r.valueMissing)
    ensures r.valueMissing <==> s.config.required && |s.selection.ids| == 0
  {
    s.(valueMissing := s.config.required && |s.selection.ids| == 0)
  }

  /** `updateSelectedOptions`: the selection changes as `Selection.Update`
      says and the required-value flag is recomputed from the new selection. */
  function UpdateSelectedOptions(s: State, option: Option<Id>): (r: State)
    requires Valid(s) && (option.Some? ==> option.value in Ids(s.catalog))
    ensures Valid(r)
    ensures r.selection == S.Update(s.selection, s.config.multiple, option)
    ensures r.valueMissing <==> r.config.required && |r.selection.ids| == 0
    ensures r == s.(selection := r.selection, valueMissing := r.valueMissing)
  {
    SetRequiredValidity(s.(selection := S.Update(s.selection, s.config.multiple, option)))
  }

  /** `formValue`: one `(name, id)` pair per selected option, in selection
      order. */
  function FormValue(s: State, name: string): (r: seq<(string, Id)>)
    ensures |r| == |s.selection.ids|
    ensures forall i :: 0 <= i < |r| ==> r[i] == (name, s.selection.ids[i])
  {
    seq(|s.selection.ids|, i requires 0 <= i < |s.selection.ids| => (name, s.selection.ids[i]))
  }

  // ---------------------------------------------------------------------------
  // Filtering
  // ---------------------------------------------------------------------------

  /** `resetVisibleOptions`: every registered option, in registration order. */
  function ResetVisible(s: State): (r: State)
    requires Valid(s)
    ensures Valid(r)
    ensures r == s.(visible := Ids(s.catalog))
  {
    SubsequenceRefl(Ids(s.catalog));
    s.(visible := Ids(s.catalog))
  }

  /** `filterOptions(noFilter)`. With `noFilter` the input text is ignored
      and every option becomes visible again, in registration order. */
  function FilterOptions(s: State, normalize: string -> string, noFilter: bool): (r: State)
    requires Valid(s)
    ensures Valid(r)
    ensures r == s.(visible := r.visible, current := r.current)
    ensures noFilter ==> r == s.(visible := Ids(s.catalog))
  {
    if noFilter then ResetVisible(s)
    else if s.config.autocomplete == List then
      s.(visible := ListFilter(s.catalog, normalize, s.input))
    else
      var k := FirstMatch(s.catalog, normalize, s.input);
      if k == -1 then s else ChangeCurrent(s, Some(s.catalog[k].id))
  }

  /** List mode: exactly the options whose normalised label contains the
      normalised input stay visible, in registration order; nothing else
      changes. */
  lemma FilterListMode(s: State, normalize: string -> string)
    requires Valid(s) && s.config.autocomplete == List
    ensures var r := FilterOptions(s, normalize, false);
      && r == s.(visible := r.visible)
      && IsSubsequence(r.visible, Ids(s.catalog))
      && forall k :: 0 <= k < |s.catalog| ==>
           (s.catalog[k].id in r.visible <==> Matches(normalize, s.catalog[k], s.input))
  {
    ListFilterMembers(s.catalog, normalize, s.input);
  }

  /** Other modes: the visible options are left alone; the first option (in
      registration order) whose label matches becomes the current option and
      no later option is considered; without a match nothing changes. */
  lemma FilterInlineMode(s: State, normalize: string -> string)
    requires Valid(s) && s.config.autocomplete != List
    ensures var r := FilterOptions(s, normalize, false);
      && r.visible == s.visible
      && r == s.(current := r.current)
      && ((forall j :: 0 <= j < |s.catalog| ==> !Matches(normalize, s.catalog[j], s.input)) ==> r == s)
      && forall k :: 0 <= k < |s.catalog| && Matches(normalize, s.catalog[k], s.input) &&
           (forall j :: 0 <= j < k ==> !Matches(normalize, s.catalog[j], s.input))
           ==> r.current == Some(s.catalog[k].id)
  {
    var k := FirstMatch(s.catalog, normalize, s.input);
  }

  // ---------------------------------------------------------------------------
  // Opening and closing
  // ---------------------------------------------------------------------------

  /** `toggleListbox(false)`: the cursor is cleared (in single mode it falls
      back to the selected option) and the input shows the committed value. */
  function Close(s: State): (r: State)
    requires Valid(s)
    ensures Valid(r)
    ensures !r.open && r.input == s.value
    ensures r == s.(open := false, input := s.value, current := r.current)
    ensures r.current == (if s.config.multiple then None else s.selection.sole)
  {
    var t := ChangeCurrent(s, None);
    t.(input := t.value, open := false)
  }

  /** Assigning the `open` property. Setting the attribute always reaches
      `toggleListbox(true)`, whose effects are all presentational; removing it
      reaches `toggleListbox(false)` only when it was present. */
  function SetOpen(s: State, open: bool): (r: State)
    requires Valid(s)
    ensures Valid(r)
    ensures r.open == open
    ensures open ==> r == s.(open := true)
    ensures !open && !s.open ==> r == s
    ensures !open && s.open ==> r == Close(s)
  {
    if open then s.(open := true)
    else if s.open then Close(s)
    else s
  }

  // ---------------------------------------------------------------------------
  // Deleting and committing
  // ---------------------------------------------------------------------------

  /** `deleteValue`: value and input emptied, all options visible, no current
      option; single mode also drops the selection, multiple mode keeps it. */
  function DeleteValue(s: State): (r: State)
    requires Valid(s)
    ensures Valid(r)
    ensures r.value == "" && r.input == "" && r.visible == Ids(s.catalog) && r.current.None?
    ensures r.open == s.open && r.catalog == s.catalog && r.tags == s.tags
    ensures !s.config.multiple ==> r.selection == S.Empty && (r.valueMissing <==> s.config.required)
    ensures s.config.multiple ==> r.selection == s.selection && r.valueMissing == s.valueMissing
  {
    var t := ResetVisible(s.(value := "", input := ""));
    var u := if !t.config.multiple then UpdateSelectedOptions(t, None) else t;
    ChangeCurrent(u, None)
  }

  /** `validateOption(option)`. The record it flips and tags is found by the
      option's LABEL, so it is the first record with that label, not
      necessarily the option's own. Multiple mode flips that record's
      `selected` flag and toggles the option's selection; single mode commits
      the label as the value, toggles the selection and closes the list. The
      tag for the label is then toggled. */
  function ValidateOption(s: State, x: Id): (r: State)
    requires Valid(s) && x in Ids(s.catalog)
    ensures Valid(r)
    ensures r.catalog == s.catalog || s.config.multiple
    ensures Ids(r.catalog) == Ids(s.catalog) && Extends(s.catalog, r.catalog)
    ensures x in r.selection.ids <==> x !in s.selection.ids
    ensures s.config.multiple ==> forall y :: y != x ==> (y in r.selection.ids <==> y in s.selection.ids)
    ensures s.config.multiple ==> r.open == s.open && r.value == s.value && r.input == s.input && r.current == s.current
    ensures !s.config.multiple ==> r.value == LabelOf(s.catalog, x) && !r.open && r.selection.ids == (if x in s.selection.ids then [] else [x])
    ensures !s.config.multiple && s.open ==> r.input == r.value && r.current == r.selection.sole
    ensures !s.config.multiple && !s.open ==> r.input == s.input && r.current == s.current
    ensures r.valueMissing <==> r.config.required && |r.selection.ids| == 0
    ensures r.visible == s.visible && r.config == s.config
  {
    var text := LabelOf(s.catalog, x);
    var k := IndexOfLabel(s.catalog, text);
    assert s.catalog[IndexOfId(s.catalog, x)].text == text;
    var data := s.catalog[k];
    var t := if s.config.multiple then ToggleMultiple(s, x, k) else CommitSingle(s, x);
    ToggleTag(t, data.text, data.id)
  }

  /** Which record `validateOption` changes: the FIRST record carrying the
      option's label, whichever option was committed. In multiple mode that
      record's flag flips; in both modes that label's tag is toggled with that
      record's id. */
  lemma ValidateOptionByLabel(s: State, x: Id)
    requires Valid(s) && x in Ids(s.catalog)
    ensures var k := IndexOfLabel(s.catalog, LabelOf(s.catalog, x));
      var r := ValidateOption(s, x);
      && 0 <= k < |s.catalog|
      && (s.config.multiple ==> r.catalog == s.catalog[k := s.catalog[k].(selected := !s.catalog[k].selected)])
      && r.tags == SetTag(s.config.tags, s.tags, LabelOf(s.catalog, x), s.catalog[k].id, None)
  {
    var text := LabelOf(s.catalog, x);
    assert s.catalog[IndexOfId(s.catalog, x)].text == text;
    var k := IndexOfLabel(s.catalog, text);
    assert s.catalog[k].text == text;
    if s.config.multiple { ToggleMultipleCatalog(s, x, k); }
  }

  /** The closing `setTag(optionData.value, optionData.id)` of
      `validateOption`: the label's tag is toggled. */
  function ToggleTag(s: State, text: string, key: Id): (r: State)
    requires Valid(s) && key in Ids(s.catalog)
    ensures Valid(r)
    ensures r == s.(tags := r.tags)
    ensures r.tags == SetTag(s.config.tags, s.tags, text, key, None)
  {
    s.(tags := SetTag(s.config.tags, s.tags, text, key, None))
  }

  /** The multiple-mode half of `validateOption`: record `k` has its
      `selected` flag flipped, option `x` has its selection toggled. */
  function ToggleMultiple(s: State, x: Id, k: nat): (r: State)
    requires Valid(s) && s.config.multiple && x in Ids(s.catalog) && k < |s.catalog|
    ensures Valid(r)
    ensures Ids(r.catalog) == Ids(s.catalog) && r.catalog[k].text == s.catalog[k].text
    ensures r.catalog[k].selected == !s.catalog[k].selected && Extends(s.catalog, r.catalog)
    ensures forall j :: 0 <= j < |s.catalog| && j != k ==> r.catalog[j] == s.catalog[j]
    ensures r == s.(catalog := r.catalog, selection := r.selection, valueMissing := r.valueMissing)
    ensures r.selection == S.Update(s.selection, true, Some(x))
    ensures x in r.selection.ids <==> x !in s.selection.ids
    ensures forall y :: y != x ==> (y in r.selection.ids <==> y in s.selection.ids)
    ensures r.valueMissing <==> r.config.required && |r.selection.ids| == 0
  {
    var data := s.catalog[k];
    IdsUpdate(s.catalog, k, data.(selected := !data.selected));
    S.MultipleToggles(s.selection, x);
    UpdateSelectedOptions(s.(catalog := s.catalog[k := data.(selected := !data.selected)]), Some(x))
  }

  /** The catalog after `ToggleMultiple`, as one update: only record `k`
      changes, and only in its `selected` flag. */
  lemma ToggleMultipleCatalog(s: State, x: Id, k: nat)
    requires Valid(s) && s.config.multiple && x in Ids(s.catalog) && k < |s.catalog|
    ensures ToggleMultiple(s, x, k).catalog == s.catalog[k := s.catalog[k].(selected := !s.catalog[k].selected)]
  {
    var data := s.catalog[k];
    IdsUpdate(s.catalog, k, data.(selected := !data.selected));
  }

  /** The single-mode half of `validateOption`: the label becomes the value,
      the selection is toggled and the list box is closed. */
  function CommitSingle(s: State, x: Id): (r: State)
    requires Valid(s) && !s.config.multiple && x in Ids(s.catalog)
    ensures Valid(r)
    ensures r.catalog == s.catalog && r.visible == s.visible && r.config == s.config && r.tags == s.tags
    ensures r.value == LabelOf(s.catalog, x) && !r.open
    ensures s.open ==> r.input == r.value && r.current == r.selection.sole
    ensures !s.open ==> r.input == s.input && r.current == s.current
    ensures r.log == s.log && r.defaultTaken == s.defaultTaken
    ensures r.selection == S.Update(s.selection, false, Some(x))
    ensures r.selection.ids == (if x in s.selection.ids then [] else [x])
    ensures r.valueMissing <==> r.config.required && |r.selection.ids| == 0
  {
    SetOpen(UpdateSelectedOptions(s.(value := LabelOf(s.catalog, x)), Some(x)), false)
  }
}

=== FILE: controller.dfy ===
/** The event handlers (combobox.js:764-891) and the attribute callback for
    `required` (combobox.js:159-188), as transitions of `Combobox.State`.
    Focus, scrolling, ARIA and `preventDefault` are not part of the state, so
    a handler that only does those leaves the state unchanged. */
module Controller {
  import opened Base
  import opened Catalog
  import opened Filtering
  import opened Navigation
  import opened Combobox
  import opened Registration
  import opened Attributes
  import opened Text
  import S = Selection

  /** What the user or the document can do to a connected element. */
  datatype Event =
    | KeyDown(key: string, ctrl: bool)             // keydown on the search input
    | SearchInput(text: string)                    // input event; the new text of the input
    | SearchClick                                  // click on the search input
    | OptionClick(id: Id)                          // click on an option
    | PointerUp(insideCombobox: bool)              // pointerup on the input or the page
    | TagButtonClick(text: string)                 // click on the delete button of a tag
    | DeleteButtonClick                            // click on the delete button of the input
    | Mutation(targetTag: string, added: seq<Entry>) // one observed childList mutation record
    | RequiredChanged(newValue: Option<string>)    // the `required` attribute changed

  // ---------------------------------------------------------------------------
  // Keyboard
  // ---------------------------------------------------------------------------

  /** Escape: a closed list box also deletes the value; the list box then
      closes. */
  function Escape(s: State): (r: State)
    requires Valid(s)
    ensures Valid(r)
    ensures !r.open && r.catalog == s.catalog && r.tags == s.tags && r.config == s.config
    ensures s.open ==> r.value == s.value && r.input == s.value && r.selection == s.selection && r.visible == s.visible
    ensures !s.open ==> r.value == "" && r.input == "" && r.current.None? && r.visible == Ids(s.catalog)
    ensures !s.open && !s.config.multiple ==> r.selection == S.Empty
    ensures s.config.multiple ==> r.selection == s.selection && r.current.None?
    ensures s.open ==> r == Close(s)
  {
    var t := if !s.open then DeleteValue(s) else s;
    SetOpen(t, false)
  }

  /** The first half of both arrow keys: a closed list box is refiltered
      first, in list mode by showing every option again, otherwise by moving
      the cursor to the first option matching the input. */
  function PrepareArrow(s: State, normalize: string -> string): (r: State)
    requires Valid(s)
    ensures Valid(r)
    ensures r == s.(visible := r.visible, current := r.current)
    ensures s.open ==> r == s
    ensures !s.open && s.config.autocomplete == List ==> r.visible == Ids(s.catalog)
    ensures !s.open || s.config.autocomplete != List ==> r.visible == Ids(s.catalog) || r.visible == s.visible
    ensures !s.open && s.config.autocomplete != List ==> r == FilterOptions(s, normalize, false)
  {
    if !s.open then FilterOptions(s, normalize, s.config.autocomplete == List) else s
  }

  /** The second half of both arrow keys: the list box opens, the cursor
      moves to `target` (in single mode, to the selected option when there
      is no target) and the input shows the cursor's label. When no cursor
      results, reading its label throws. */
  function MoveTo(s: State, target: Option<Id>): (r: State)
    requires Valid(s) && (target.Some? ==> target.value in Ids(s.catalog))
    ensures Valid(r)
    ensures r == s.(open := true, current := r.current, input := r.input, log := r.log)
    ensures target.Some? ==> r.current == target
    ensures r.current.Some? ==> r.input == LabelOf(r.catalog, r.current.value) && r.log == s.log
    ensures r.current.None? ==> r.log == s.log + [UncaughtTypeError] && r.input == s.input
    ensures target.None? ==> r.current == (if s.config.multiple then None else s.selection.sole)
  {
    var u := ChangeCurrent(SetOpen(s, true), target);
    if u.current.None? then u.(log := u.log + [UncaughtTypeError])
    else u.(input := LabelOf(u.catalog, u.current.value))
  }

  /** ArrowDown: with options visible, the list box opens, the cursor moves
      to the next visible option (wrapping) and the input shows its label. */
  function ArrowDown(s: State, normalize: string -> string): (r: State)
    requires Valid(s)
    ensures Valid(r)
    ensures r.catalog == s.catalog && r.selection == s.selection && r.value == s.value && r.log == s.log
    ensures r.config == s.config
    ensures |r.visible| > 0 ==>
      r.open && r.current.Some? && r.current.value in r.visible && r.input == LabelOf(r.catalog, r.current.value)
    ensures s.open && |s.visible| > 0 ==> r.visible == s.visible && r.current == NextVisible(s.visible, s.current)
    ensures var t := PrepareArrow(s, normalize);
      |t.visible| > 0 ==> r.visible == t.visible && r.current == NextVisible(t.visible, t.current)
    ensures |PrepareArrow(s, normalize).visible| == 0 ==> r == PrepareArrow(s, normalize)
  {
    var t := PrepareArrow(s, normalize);
    if |t.visible| == 0 then t
    else
      VisibleNoDup(t);
      MoveTo(t, NextVisible(t.visible, t.current))
  }

  /** ArrowUp: as ArrowDown towards the previous option. When the current
      option is not visible the source reads an out-of-range index; in
      single mode the cursor then falls back to the selected option, and when
      there is none the label lookup throws. */
  function ArrowUp(s: State, normalize: string -> string): (r: State)
    requires Valid(s)
    ensures Valid(r)
    ensures r.catalog == s.catalog && r.selection == s.selection && r.value == s.value && r.config == s.config
    ensures |r.visible| > 0 ==> r.open
    ensures r.current.Some? && |r.visible| > 0 ==> r.input == LabelOf(r.catalog, r.current.value) && r.log == s.log
    ensures r.current.None? && |r.visible| > 0 ==> r.log == s.log + [UncaughtTypeError]
    ensures var t := PrepareArrow(s, normalize);
      |t.visible| > 0 && PreviousVisible(t.visible, t.current).Some? ==>
        r.visible == t.visible && r.current == PreviousVisible(t.visible, t.current)
    ensures var t := PrepareArrow(s, normalize);
      |t.visible| > 0 && PreviousVisible(t.visible, t.current).None? ==>
        r.visible == t.visible && r.current == (if s.config.multiple then None else s.selection.sole)
    ensures |PrepareArrow(s, normalize).visible| == 0 ==> r == PrepareArrow(s, normalize)
  {
    var t := PrepareArrow(s, normalize);
    if |t.visible| == 0 then t
    else
      VisibleNoDup(t);
      MoveTo(t, PreviousVisible(t.visible, t.current))
  }

  /** ArrowDown on a closed list box outside list mode: the refiltering puts
      the cursor on the first matching option, and the move then goes on to
      the option after it, so the match itself is stepped over. */
  lemma ArrowDownClosedInline(s: State, normalize: string -> string)
    requires Valid(s) && !s.open && s.config.autocomplete != List && |s.visible| > 0
    requires FirstMatch(s.catalog, normalize, s.input) >= 0
    ensures var k := FirstMatch(s.catalog, normalize, s.input);
      var r := ArrowDown(s, normalize);
      && r.visible == s.visible
      && r.current == NextVisible(s.visible, Some(s.catalog[k].id))
  {
    FilterInlineMode(s, normalize);
  }

  /** With every option visible and the first option matching, ArrowDown on
      a closed list box outside list mode lands on the SECOND option. */
  lemma ArrowDownSkipsFirstMatch(s: State, normalize: string -> string)
    requires Valid(s) && !s.open && s.config.autocomplete != List
    requires s.visible == Ids(s.catalog) && |s.catalog| >= 2
    requires Matches(normalize, s.catalog[0], s.input)
    ensures ArrowDown(s, normalize).current == Some(s.catalog[1].id)
  {
    assert FirstMatch(s.catalog, normalize, s.input) == 0;
    ArrowDownClosedInline(s, normalize);
    VisibleNoDup(s);
    assert s.visible[0] == s.catalog[0].id && s.visible[1] == s.catalog[1].id;
  }

  /** ArrowUp on a closed list box outside list mode: the move starts from the
      first matching option and goes to the option before it, wrapping to the
      last when the match is the first visible option. */
  lemma ArrowUpClosedInline(s: State, normalize: string -> string)
    requires Valid(s) && !s.open && s.config.autocomplete != List && |s.visible| > 0
    requires FirstMatch(s.catalog, normalize, s.input) >= 0
    requires s.catalog[FirstMatch(s.catalog, normalize, s.input)].id in s.visible
    ensures var k := FirstMatch(s.catalog, normalize, s.input);
      var r := ArrowUp(s, normalize);
      && r.visible == s.visible
      && r.current == PreviousVisible(s.visible, Some(s.catalog[k].id))
      && r.current.Some?
  {
    FilterInlineMode(s, normalize);
  }

  /** ArrowUp from a hidden cursor on an open list box: the predecessor
      lookup finds nothing, the cursor falls back to the selected option in
      single mode and is cleared in multiple mode, so with nothing to fall
      back to the label lookup throws. */
  lemma ArrowUpHiddenCursorThrows(s: State, normalize: string -> string)
    requires Valid(s) && s.open && |s.visible| > 0
    requires s.current.Some? && s.current.value !in s.visible
    requires s.config.multiple || s.selection.sole.None?
    ensures var r := ArrowUp(s, normalize);
      && r.visible == s.visible && r.current.None?
      && r.log == s.log + [UncaughtTypeError]
  {
  }

  /** On an open list box whose cursor is visible (or absent), ArrowUp
      moves to the previous visible option and does not throw. */
  lemma ArrowUpVisibleCursor(s: State, normalize: string -> string)
    requires Valid(s) && s.open && |s.visible| > 0 && (s.current.None? || s.current.value in s.visible)
    ensures var r := ArrowUp(s, normalize);
      && r.visible == s.visible && r.current == PreviousVisible(s.visible, s.current)
      && r.current.Some? && r.log == s.log
  {
    VisibleNoDup(s);
  }

  /** In single mode a list-mode search can hide the selected option while
      the cursor falls back to it. ArrowUp then reads index -2, gets no
      option, and the cursor falls back to the hidden selected option again:
      it stays where it is and the input shows its label, whereas ArrowDown
      moves to the first visible option. */
  lemma ArrowUpHiddenCursor(s: State, normalize: string -> string)
    requires Valid(s) && !s.config.multiple && s.open && |s.visible| > 0
    requires s.current.Some? && s.current.value !in s.visible && s.current == s.selection.sole
    ensures var r := ArrowUp(s, normalize);
      && r.current == s.current && r.visible == s.visible && r.log == s.log
      && r.input == LabelOf(s.catalog, s.current.value)
    ensures ArrowDown(s, normalize).current == Some(s.visible[0])
  {
    VisibleNoDup(s);
  }

  /** The commit step of Enter: the current option is committed, or else
      the first option whose normalised label equals the normalised input,
      or nothing. */
  function CommitCursorOrMatch(s: State, normalize: string -> string): (r: State)
    requires Valid(s)
    ensures Valid(r)
    ensures Ids(r.catalog) == Ids(s.catalog) && r.config == s.config && Extends(s.catalog, r.catalog)
    ensures s.current.Some? ==> r == ValidateOption(s, s.current.value)
    ensures s.current.None? && ExactMatch(s.catalog, normalize, s.input) == -1 ==> r == s
    ensures s.current.None? && ExactMatch(s.catalog, normalize, s.input) >= 0 ==>
      r == ValidateOption(s, s.catalog[ExactMatch(s.catalog, normalize, s.input)].id)
  {
    if s.current.Some? then ValidateOption(s, s.current.value)
    else
      var k := ExactMatch(s.catalog, normalize, s.input);
      if k == -1 then s else ValidateOption(s, s.catalog[k].id)
  }

  /** Enter: a closed list box is opened and filtered by the input first. */
  function Enter(s: State, normalize: string -> string): (r: State)
    requires Valid(s)
    ensures Valid(r)
    ensures Ids(r.catalog) == Ids(s.catalog) && r.config == s.config && Extends(s.catalog, r.catalog)
    ensures s.open ==> r == CommitCursorOrMatch(s, normalize)
    ensures !s.open ==> r == CommitCursorOrMatch(FilterOptions(SetOpen(s, true), normalize, false), normalize)
  {
    var t := if !s.open then FilterOptions(SetOpen(s, true), normalize, false) else s;
    CommitCursorOrMatch(t, normalize)
  }

  /** `onSearchKeydown`. A key pressed with Ctrl is ignored; keys other than
      the five handled ones only move focus. */
  function HandleKey(s: State, normalize: string -> string, key: string, ctrl: bool): (r: State)
    requires Valid(s)
    ensures Valid(r)
    ensures ctrl ==> r == s
    ensures Ids(r.catalog) == Ids(s.catalog) && r.config == s.config && Extends(s.catalog, r.catalog)
    ensures !(key in ["Escape", "Tab", "ArrowDown", "ArrowUp", "Enter"]) ==> r == s
    ensures !ctrl && key == "Tab" ==> !r.open && r.value == s.value && r.selection == s.selection
    ensures !ctrl && key == "Tab" ==> r == SetOpen(s, false)
  {
    if ctrl then s
    else if key == "Escape" then Escape(s)
    else if key == "Tab" then SetOpen(s, false)
    else if key == "ArrowDown" then ArrowDown(s, normalize)
    else if key == "ArrowUp" then ArrowUp(s, normalize)
    else if key == "Enter" then Enter(s, normalize)
    else s
  }

  /** Typing a printable character changes nothing but focus: the text
      itself arrives with the `input` event. */
  lemma PrintableKeyOnlyFocuses(s: State, normalize: string -> string, key: string)
    requires Valid(s) && IsPrintableCharacter(key)
    ensures HandleKey(s, normalize, key, false) == s
  {
    assert |key| == 1;
  }

  // ---------------------------------------------------------------------------
  // Pointer, input and document events
  // ---------------------------------------------------------------------------

  /** The start of `onSearchInput`: the typed text becomes the value and
      the options are filtered by it. */
  function Retype(s: State, normalize: string -> string, text: string): (r: State)
    requires Valid(s)
    ensures Valid(r)
    ensures r == s.(value := text, input := text, visible := r.visible, current := r.current)
    ensures s.config.autocomplete == List ==> r.visible == ListFilter(s.catalog, normalize, text)
    ensures s.config.autocomplete != List ==> r.visible == s.visible
    ensures s.config.autocomplete == List ==> r.current == s.current
    ensures s.config.autocomplete != List && FirstMatch(s.catalog, normalize, text) >= 0 ==>
      r.current == Some(s.catalog[FirstMatch(s.catalog, normalize, text)].id)
  {
    FilterOptions(s.(value := text, input := text), normalize, false)
  }

  /** The end of `onSearchInput`: a cursor on a hidden option is cleared
      (in single mode it falls back to the selected option). */
  function DropHiddenCursor(s: State): (r: State)
    requires Valid(s)
    ensures Valid(r)
    ensures r == s.(current := r.current)
    ensures s.current.None? || s.current.value in s.visible ==> r == s
    ensures s.config.multiple && r.current.Some? ==> r.current.value in r.visible
    ensures s.current.Some? && s.current.value !in s.visible ==>
      r.current == (if s.config.multiple then None else s.selection.sole)
  {
    if s.current.Some? && s.current.value !in s.visible then ChangeCurrent(s, None) else s
  }

  /** `onSearchInput`: the typed text becomes the value, the options are
      filtered by it, the list box is open exactly when some option is
      visible, and a cursor left on a hidden option is cleared. */
  function HandleInput(s: State, normalize: string -> string, text: string): (r: State)
    requires Valid(s)
    ensures Valid(r)
    ensures r.value == text && r.input == text
    ensures r.open <==> |r.visible| > 0
    ensures r.catalog == s.catalog && r.selection == s.selection && r.tags == s.tags && r.config == s.config
    ensures s.config.autocomplete == List ==> r.visible == ListFilter(s.catalog, normalize, text)
    ensures s.config.autocomplete != List ==> r.visible == s.visible
    ensures s.config.multiple && r.current.Some? ==> r.current.value in r.visible
    ensures s.config.autocomplete == List && s.current.Some? && s.current.value in r.visible ==> r.current == s.current
    ensures s.config.multiple && s.config.autocomplete == List ==>
      r.current == (if s.current.Some? && s.current.value in r.visible then s.current else None)
    ensures !s.config.multiple && s.config.autocomplete == List && s.current.Some? && s.current.value !in r.visible ==>
      r.current == s.selection.sole
    ensures s.config.autocomplete != List && FirstMatch(s.catalog, normalize, text) >= 0 ==>
      r.current == Some(s.catalog[FirstMatch(s.catalog, normalize, text)].id)
  {
    var t := Retype(s, normalize, text);
    DropHiddenCursor(SetOpen(t, |t.visible| > 0))
  }

  /** `onOptionClick`: the clicked option becomes current, its label is
      shown, and it is committed. A click can only reach a registered
      option. */
  function HandleOptionClick(s: State, x: Id): (r: State)
    requires Valid(s)
    ensures Valid(r)
    ensures x !in Ids(s.catalog) ==> r == s
    ensures r.config == s.config && Extends(s.catalog, r.catalog)
    ensures x in Ids(s.catalog) ==> (x in r.selection.ids <==> x !in s.selection.ids)
    ensures x in Ids(s.catalog) && s.config.multiple ==>
      r.current == Some(x) && r.input == LabelOf(s.catalog, x) &&
      forall y :: y != x ==> (y in r.selection.ids <==> y in s.selection.ids)
    ensures x in Ids(s.catalog) && !s.config.multiple ==> r.value == LabelOf(s.catalog, x) && !r.open
    ensures x in Ids(s.catalog) && !s.config.multiple && s.open ==> r.input == r.value && r.current == r.selection.sole
    ensures x in Ids(s.catalog) && !s.config.multiple && !s.open ==> r.input == LabelOf(s.catalog, x) && r.current == Some(x)
  {
    if x !in Ids(s.catalog) then s
    else
      var t := ChangeCurrent(s, Some(x));
      ValidateOption(t.(input := LabelOf(t.catalog, x)), x)
  }

  /** `onTagButtonClick`: the option whose id the tag's button carries is
      committed again, so its selection flips. While labels are unique a tag
      only exists for a selected option, which the click deselects; with a
      shared label the tag can carry the id of an unselected option, which
      the click then selects. */
  function HandleTagClick(s: State, text: string): (r: State)
    requires Valid(s)
    ensures Valid(r)
    ensures text !in s.tags ==> r == s
    ensures r.config == s.config && Extends(s.catalog, r.catalog)
    ensures text in s.tags ==> r == ValidateOption(s, s.tags[text])
    ensures text in s.tags && s.tags[text] in s.selection.ids ==> s.tags[text] !in r.selection.ids
  {
    if text in s.tags then ValidateOption(s, s.tags[text]) else s
  }

  /** `onMutation` for one record: elements added under a `UL` are
      registered. */
  function HandleMutation(s: State, targetTag: string, added: seq<Entry>): (r: State)
    requires Valid(s)
    ensures Valid(r)
    ensures targetTag != "UL" || |added| == 0 ==> r == s
    ensures r.config == s.config && Extends(s.catalog, r.catalog)
    ensures |s.catalog| <= |r.catalog| <= |s.catalog| + |added| && r.catalog[..|s.catalog|] == s.catalog
  {
    if targetTag == "UL" && |added| > 0 then GenerateOptions(s, added) else s
  }

  /** The `required` branch of `attributeChangedCallback`: the prop is
      re-read from the attribute and the validity flag recomputed. */
  function HandleRequired(s: State, newValue: Option<string>): (r: State)
    requires Valid(s)
    ensures Valid(r)
    ensures r.config.required == BooleanProp("required", newValue)
    ensures r == s.(config := r.config, valueMissing := r.valueMissing)
    ensures r.valueMissing <==> r.config.required && |s.selection.ids| == 0
  {
    SetRequiredValidity(s.(config := s.config.(required := BooleanProp("required", newValue))))
  }

  /** One event. */
  function Handle(s: State, normalize: string -> string, ev: Event): (r: State)
    requires Valid(s)
    ensures Valid(r)
    ensures r.config.multiple == s.config.multiple && r.config.tags == s.config.tags
    ensures r.config.autocomplete == s.config.autocomplete
    ensures Extends(s.catalog, r.catalog)
  {
    match ev
    case KeyDown(key, ctrl) => HandleKey(s, normalize, key, ctrl)
    case SearchInput(text) => HandleInput(s, normalize, text)
    case SearchClick => SetOpen(s, !s.open)
    case OptionClick(x) => HandleOptionClick(s, x)
    case PointerUp(inside) => if inside then s else SetOpen(s, false)
    case TagButtonClick(text) => HandleTagClick(s, text)
    case DeleteButtonClick => DeleteValue(s)
    case Mutation(targetTag, added) => HandleMutation(s, targetTag, added)
    case RequiredChanged(newValue) => HandleRequired(s, newValue)
  }

  /** A sequence of events, in order. The invariant holds after every
      prefix, so in particular after all of them. */
  function Run(s: State, normalize: string -> string, events: seq<Event>): (r: State)
    requires Valid(s)
    ensures Valid(r)
    ensures r.config.multiple == s.config.multiple && r.config.tags == s.config.tags
    ensures Extends(s.catalog, r.catalog)
    decreases |events|
  {
    if |events| == 0 then s
    else
      var t := Handle(s, normalize, events[0]);
      var r := Run(t, normalize, events[1..]);
      ExtendsTrans(s.catalog, t.catalog, r.catalog);
      r
  }

  /** In single mode at most one option is ever selected, whatever happens. */
  lemma SingleModeExclusive(s: State, normalize: string -> string, events: seq<Event>)
    requires Valid(s) && !s.config.multiple
    ensures |Run(s, normalize, events).selection.ids| <= 1
  {
  }

  /** Down then Up on an open list box whose cursor is on a visible option
      brings the cursor back. */
  lemma ArrowDownThenUp(s: State, normalize: string -> string)
    requires Valid(s) && s.open && s.current.Some? && s.current.value in s.visible
    ensures ArrowUp(ArrowDown(s, normalize), normalize).current == s.current
  {
    VisibleNoDup(s);
    NextPreviousInverse(s.visible, s.current.value);
  }
}

=== FILE: filtering.dfy ===
/** The two filtering policies of `filterOptions` (combobox.js:563-587) as
    pure functions of the catalog, the normaliser and the input text. */
module Filtering {
  import opened Base
  import opened Text
  import opened Catalog

  /** `normalizeString(item.value).includes(normalizeString(inputValue))`. */
  predicate Matches(normalize: string -> string, o: OptionData, input: string) {
    Includes(normalize(o.text), normalize(input))
  }

  /** List mode: the ids of the matching records, pushed in catalog order.
      The result is always a subsequence of the catalog's ids. */
  function ListFilter(cat: seq<OptionData>, normalize: string -> string, input: string): (r: seq<Id>)
    ensures IsSubsequence(r, Ids(cat))
    decreases |cat|
  {
    if |cat| == 0 then []
    else
      var init, last := cat[..|cat| - 1], cat[|cat| - 1];
      var r' := ListFilter(init, normalize, input);
      assert cat == init + [last];
      IdsSnoc(init, last);
      if Matches(normalize, last, input) then
        SubsequenceSnoc(r', Ids(init), last.id);
        r' + [last.id]
      else
        SubsequenceExtend(r', Ids(init), last.id);
        r'
  }

  /** A catalog record is visible after list filtering exactly when its
      normalised label contains the normalised input. */
  lemma {:induction false} ListFilterMembers(cat: seq<OptionData>, normalize: string -> string, input: string)
    requires UniqueIds(cat)
    ensures forall k :: 0 <= k < |cat| ==>
      (cat[k].id in ListFilter(cat, normalize, input) <==> Matches(normalize, cat[k], input))
    decreases |cat|
  {
    if |cat| > 0 {
      var n := |cat| - 1;
      var init, last := cat[..n], cat[n];
      assert cat == init + [last];
      IdsPrefix(cat, n);
      assert UniqueIds(init);
      var r' := ListFilter(init, normalize, input);
      ListFilterMembers(init, normalize, input);
      SubsequenceMembers(r', Ids(init));
      assert last.id !in Ids(init) by {
        forall j | 0 <= j < n ensures Ids(init)[j] != last.id {
          assert Ids(cat)[j] == Ids(init)[j] && Ids(cat)[n] == last.id;
        }
      }
      forall k | 0 <= k < n
        ensures cat[k].id in ListFilter(cat, normalize, input) <==> Matches(normalize, cat[k], input)
      {
        assert cat[k] == init[k];
        assert Ids(cat)[k] != Ids(cat)[n];
      }
    }
  }

  /** When the normalised input is empty every label matches, so list
      filtering shows the whole catalog in registration order. */
  lemma {:induction false} ListFilterEmptyInput(cat: seq<OptionData>, normalize: string -> string, input: string)
    requires normalize(input) == ""
    ensures ListFilter(cat, normalize, input) == Ids(cat)
    decreases |cat|
  {
    if |cat| > 0 {
      var init, last := cat[..|cat| - 1], cat[|cat| - 1];
      assert cat == init + [last];
      IdsSnoc(init, last);
      ListFilterEmptyInput(init, normalize, input);
      IncludesEmpty(normalize(last.text));
    }
  }

  /** Inline mode: the position of the first record whose label matches;
      scanning stops there (the source's `break`). -1 when none matches. */
  function FirstMatch(cat: seq<OptionData>, normalize: string -> string, input: string): (k: int)
    ensures -1 <= k < |cat|
    ensures 0 <= k ==> Matches(normalize, cat[k], input)
    ensures 0 <= k ==> forall j :: 0 <= j < k ==> !Matches(normalize, cat[j], input)
    ensures k == -1 <==> forall j :: 0 <= j < |cat| ==> !Matches(normalize, cat[j], input)
  {
    FindIndex(cat, (o: OptionData) => Matches(normalize, o, input))
  }

  /** Enter's fallback: the first record whose normalised label EQUALS the
      normalised input (combobox.js:832-836). */
  function ExactMatch(cat: seq<OptionData>, normalize: string -> string, input: string): (k: int)
    ensures -1 <= k < |cat|
    ensures 0 <= k ==> normalize(cat[k].text) == normalize(input)
    ensures 0 <= k ==> forall j :: 0 <= j < k ==> normalize(cat[j].text) != normalize(input)
    ensures k == -1 <==> forall j :: 0 <= j < |cat| ==> normalize(cat[j].text) != normalize(input)
  {
    FindIndex(cat, (o: OptionData) => normalize(o.text) == normalize(input))
  }
}

=== FILE: mirror.dfy ===
/** What the three views of the selection have in common. Besides
    `selectedOptions`, multiple mode keeps a `selected` flag on every record
    (flipped by `validateOption`) and, with tags on, one tag per selected
    label (toggled by `setTag`). The views agree as long as no two options
    share a label, because `validateOption` and the tags find records by
    label; with a shared label they drift apart. */
module Mirror {
  import opened Base
  import opened Catalog
  import opened Combobox
  import opened Registration
  import opened Controller
  import opened Filtering
  import opened Tags
  import S = Selection

  /** Multiple mode: a record is flagged exactly when its option is
      selected. */
  ghost predicate FlagsMirror(config: Config, cat: seq<OptionData>, sel: S.Selection) {
    config.multiple ==>
      forall i :: 0 <= i < |cat| ==> (cat[i].selected <==> cat[i].id in sel.ids)
  }

  /** Tags on: a label has a tag exactly when its option is selected, and
      the tag's button carries the id of the option with that label. */
  ghost predicate TagsMirror(config: Config, cat: seq<OptionData>, sel: S.Selection, tags: TagMap) {
    config.tags ==>
      && (forall i :: 0 <= i < |cat| ==> (cat[i].text in tags <==> cat[i].id in sel.ids))
      && (forall l :: l in tags ==> tags[l] in Ids(cat) && LabelOf(cat, tags[l]) == l)
  }

  /** The three views agree. Only the configuration, the catalog, the
      selection and the tags take part. */
  ghost predicate Mirrored(s: State) {
    FlagsMirror(s.config, s.catalog, s.selection) && TagsMirror(s.config, s.catalog, s.selection, s.tags)
  }

  /** Under unique labels, the first record with an option's label is that
      option's own record. */
  lemma LabelFindsOwnRecord(cat: seq<OptionData>, x: Id)
    requires UniqueIds(cat) && UniqueLabels(cat) && x in Ids(cat)
    ensures IndexOfLabel(cat, LabelOf(cat, x)) == IndexOfId(cat, x)
  {
  }

  /** `validateOption` keeps the views in step when labels are unique. */
  lemma ValidateOptionMirror(s: State, x: Id)
    requires Valid(s) && x in Ids(s.catalog) && UniqueLabels(s.catalog) && Mirrored(s)
    ensures Mirrored(ValidateOption(s, x))
  {
    if s.config.multiple {
      var r := ValidateOption(s, x);
      var k := IndexOfId(s.catalog, x);
      LabelFindsOwnRecord(s.catalog, x);
      var t := ToggleMultiple(s, x, k);
      assert r == ToggleTag(t, s.catalog[k].text, x);
      IdsPreserved(s.catalog, t.catalog, k);
      FlagsToggle(s.config, s.catalog, s.selection, r.selection, k);
      TagsToggle(s.config, s.catalog, s.selection, r.selection, s.tags, k);
    }
  }

  /** Flipping record `k`'s flag while toggling the selection of its option
      keeps the flags in step. */
  lemma FlagsToggle(config: Config, cat: seq<OptionData>, sel: S.Selection, sel': S.Selection, k: nat)
    requires UniqueIds(cat) && k < |cat| && FlagsMirror(config, cat, sel)
    requires cat[k].id in sel'.ids <==> cat[k].id !in sel.ids
    requires forall y :: y != cat[k].id ==> (y in sel'.ids <==> y in sel.ids)
    ensures FlagsMirror(config, cat[k := cat[k].(selected := !cat[k].selected)], sel')
  {
    var c := cat[k := cat[k].(selected := !cat[k].selected)];
    if config.multiple {
      forall j | 0 <= j < |c|
        ensures c[j].selected <==> c[j].id in sel'.ids
      {
        if j != k {
          assert Ids(cat)[j] != Ids(cat)[k];
        }
      }
    }
  }

  /** Flipping record `k`'s flag, toggling the selection of its option and
      toggling the tag of its label keeps the tags in step, provided no
      other record carries that label. */
  lemma TagsToggle(config: Config, cat: seq<OptionData>, sel: S.Selection, sel': S.Selection, tags: TagMap, k: nat)
    requires UniqueIds(cat) && UniqueLabels(cat) && k < |cat| && TagsMirror(config, cat, sel, tags)
    requires cat[k].id in sel'.ids <==> cat[k].id !in sel.ids
    requires forall y :: y != cat[k].id ==> (y in sel'.ids <==> y in sel.ids)
    ensures TagsMirror(config, cat[k := cat[k].(selected := !cat[k].selected)], sel',
                       SetTag(config.tags, tags, cat[k].text, cat[k].id, None))
  {
    var c := cat[k := cat[k].(selected := !cat[k].selected)];
    var t := SetTag(config.tags, tags, cat[k].text, cat[k].id, None);
    if config.tags {
      IdsUpdate(cat, k, c[k]);
      forall j | 0 <= j < |c|
        ensures c[j].text in t <==> c[j].id in sel'.ids
      {
        if j != k {
          assert Ids(cat)[j] != Ids(cat)[k];
          assert cat[j].text != cat[k].text;
        }
      }
      forall l | l in t
        ensures t[l] in Ids(c) && LabelOf(c, t[l]) == l
      {
        if l != cat[k].text {
          var m := IndexOfId(cat, t[l]);
          assert c[m] == cat[m] || m == k;
        } else {
          assert c[k].id == Ids(c)[k];
        }
      }
    }
  }

  /** `registerOption` keeps the views in step when the new label is not
      already taken. */
  lemma RegisterOptionMirror(s: State, info: OptionData)
    requires Valid(s) && info.id !in Ids(s.catalog)
    requires !s.config.multiple && info.selected ==>
      s.defaultTaken && forall i :: 0 <= i < |s.catalog| ==> !s.catalog[i].selected
    requires Mirrored(s) && UniqueLabels(s.catalog + [info])
    ensures Mirrored(RegisterOption(s, info))
  {
    var r := RegisterOption(s, info);
    FlagsAppend(s.config, s.catalog, s.selection, r.selection, info);
    TagsAppend(s.config, s.catalog, s.selection, r.selection, s.tags, r.tags, info);
  }

  /** Appending a record whose option is selected exactly when it is
      flagged keeps the flags in step. */
  lemma FlagsAppend(config: Config, cat: seq<OptionData>, sel: S.Selection, sel': S.Selection, info: OptionData)
    requires info.id !in Ids(cat) && FlagsMirror(config, cat, sel)
    requires info.id in sel'.ids <==> info.selected
    requires config.multiple ==> forall y :: y != info.id ==> (y in sel'.ids <==> y in sel.ids)
    ensures FlagsMirror(config, cat + [info], sel')
  {
    var c := cat + [info];
    if config.multiple {
      forall j | 0 <= j < |c|
        ensures c[j].selected <==> c[j].id in sel'.ids
      {
        if j < |cat| {
          assert c[j] == cat[j] && Ids(cat)[j] == cat[j].id;
        }
      }
    }
  }

  /** Appending a record with a fresh label whose tag is forced to its
      flag keeps the tags in step. */
  lemma TagsAppend(config: Config, cat: seq<OptionData>, sel: S.Selection, sel': S.Selection,
                   tags: TagMap, tags': TagMap, info: OptionData)
    requires config.tags ==> config.multiple
    requires info.id !in Ids(cat) && UniqueIds(cat + [info]) && UniqueLabels(cat + [info])
    requires TagsMirror(config, cat, sel, tags)
    requires info.id in sel'.ids <==> info.selected
    requires config.multiple ==> forall y :: y != info.id ==> (y in sel'.ids <==> y in sel.ids)
    requires config.tags ==> (info.text in tags' <==> info.selected)
    requires config.tags && info.selected && info.text !in tags ==> tags'[info.text] == info.id
    requires forall l :: l != info.text ==> (l in tags' <==> l in tags) && (l in tags' ==> tags'[l] == tags[l])
    ensures TagsMirror(config, cat + [info], sel', tags')
  {
    if config.tags {
      TagsAppendPresence(cat, sel, sel', tags, tags', info);
      forall l | l in tags
        ensures l != info.text
      {
        var k := IndexOfId(cat, tags[l]);
        assert (cat + [info])[k] == cat[k] && (cat + [info])[|cat|] == info;
      }
      TagsAppendKeys(cat, tags, tags', info);
    }
  }

  /** The first half of `TagsAppend`: a label is tagged exactly when its
      option is selected. */
  lemma TagsAppendPresence(cat: seq<OptionData>, sel: S.Selection, sel': S.Selection,
                           tags: TagMap, tags': TagMap, info: OptionData)
    requires info.id !in Ids(cat) && UniqueLabels(cat + [info])
    requires forall i :: 0 <= i < |cat| ==> (cat[i].text in tags <==> cat[i].id in sel.ids)
    requires info.id in sel'.ids <==> info.selected
    requires forall y :: y != info.id ==> (y in sel'.ids <==> y in sel.ids)
    requires info.text in tags' <==> info.selected
    requires forall l :: l != info.text ==> (l in tags' <==> l in tags)
    ensures forall i :: 0 <= i < |cat + [info]| ==>
      ((cat + [info])[i].text in tags' <==> (cat + [info])[i].id in sel'.ids)
  {
    var c := cat + [info];
    var n := |cat|;
    forall j | 0 <= j < |c|
      ensures c[j].text in tags' <==> c[j].id in sel'.ids
    {
      if j < n {
        assert Ids(cat)[j] == cat[j].id;
        assert c[n] == info && c[j].text != c[n].text;
        assert c[j] == cat[j];
      } else {
        assert c[j] == info;
      }
    }
  }

  /** The second half of `TagsAppend`: every tag carries the id of the
      option with its label. */
  lemma TagsAppendKeys(cat: seq<OptionData>, tags: TagMap, tags': TagMap, info: OptionData)
    requires UniqueIds(cat + [info])
    requires forall l :: l in tags ==> tags[l] in Ids(cat) && LabelOf(cat, tags[l]) == l
    requires info.text !in tags && (info.text in tags' ==> tags'[info.text] == info.id)
    requires forall l :: l != info.text ==> (l in tags' <==> l in tags) && (l in tags' ==> tags'[l] == tags[l])
    ensures forall l :: l in tags' ==> tags'[l] in Ids(cat + [info]) && LabelOf(cat + [info], tags'[l]) == l
  {
    var c := cat + [info];
    var n := |cat|;
    IdsSnoc(cat, info);
    forall l | l in tags'
      ensures tags'[l] in Ids(c) && LabelOf(c, tags'[l]) == l
    {
      var y := tags'[l];
      if l != info.text {
        var k := IndexOfId(cat, y);
        assert c[k] == cat[k];
        assert c[k].id == y;
      } else {
        assert c[n] == info;
        assert c[n].id == y;
      }
    }
  }

  /** Registering one entry keeps the views in step when the new label is
      not already taken. */
  lemma RegisterEntryMirror(s: State, e: Entry)
    requires Valid(s) && Mirrored(s) && UniqueLabels(RegisterEntry(s, e).catalog)
    ensures Mirrored(RegisterEntry(s, e))
  {
    if WellFormed(e) && e.dataId !in Ids(s.catalog) {
      assert RegisterEntry(s, e) == RegisterOption(NoteDefault(s, e), Record(s, e));
      RegisterOptionMirror(NoteDefault(s, e), Record(s, e));
    }
  }

  /** Registering a batch keeps the views in step when the labels of the
      resulting catalog are unique. */
  lemma {:induction false} GenerateOptionsMirror(s: State, entries: seq<Entry>)
    requires Valid(s) && Mirrored(s) && UniqueLabels(GenerateOptions(s, entries).catalog)
    ensures Mirrored(GenerateOptions(s, entries))
    decreases |entries|
  {
    if |entries| > 0 {
      var t := RegisterEntry(s, entries[0]);
      UniqueLabelsExtends(t.catalog, GenerateOptions(t, entries[1..]).catalog);
      RegisterEntryMirror(s, entries[0]);
      GenerateOptionsMirror(t, entries[1..]);
    }
  }

  /** Enter keeps the views in step when labels are unique. */
  lemma EnterMirror(s: State, normalize: string -> string)
    requires Valid(s) && Mirrored(s) && UniqueLabels(s.catalog)
    ensures Mirrored(Enter(s, normalize))
  {
    var t := if !s.open then FilterOptions(SetOpen(s, true), normalize, false) else s;
    assert t.catalog == s.catalog && t.selection == s.selection && t.tags == s.tags && t.config == s.config;
    if t.current.Some? {
      ValidateOptionMirror(t, t.current.value);
    } else {
      var k := ExactMatch(t.catalog, normalize, t.input);
      if k != -1 {
        ValidateOptionMirror(t, t.catalog[k].id);
      }
    }
  }

  /** A transition that keeps the configuration and, in multiple mode, the
      catalog, the selection and the tags, keeps the views in step: in single
      mode there is nothing to mirror. */
  lemma MirrorFrame(s: State, r: State)
    requires Valid(s) && Mirrored(s) && r.config == s.config
    requires s.config.multiple ==> r.catalog == s.catalog && r.selection == s.selection && r.tags == s.tags
    ensures Mirrored(r)
  {
  }

  /** Every key keeps the views in step when labels are unique: only Enter
      commits anything, and Escape's deletion only touches single mode. */
  lemma HandleKeyMirror(s: State, normalize: string -> string, key: string, ctrl: bool)
    requires Valid(s) && Mirrored(s) && UniqueLabels(s.catalog)
    ensures Mirrored(HandleKey(s, normalize, key, ctrl))
  {
    if ctrl {
    } else if key == "Escape" {
      MirrorFrame(s, Escape(s));
    } else if key == "Tab" {
      MirrorFrame(s, SetOpen(s, false));
    } else if key == "ArrowDown" {
      MirrorFrame(s, ArrowDown(s, normalize));
    } else if key == "ArrowUp" {
      MirrorFrame(s, ArrowUp(s, normalize));
    } else if key == "Enter" {
      EnterMirror(s, normalize);
    }
  }

  /** Clicking an option keeps the views in step when labels are unique. */
  lemma OptionClickMirror(s: State, x: Id)
    requires Valid(s) && Mirrored(s) && UniqueLabels(s.catalog)
    ensures Mirrored(HandleOptionClick(s, x))
  {
    if x in Ids(s.catalog) {
      var t := ChangeCurrent(s, Some(x));
      ValidateOptionMirror(t.(input := LabelOf(t.catalog, x)), x);
    }
  }

  /** Every event keeps the views in step, provided the labels are still
      unique afterwards. */
  lemma HandleMirror(s: State, normalize: string -> string, ev: Event)
    requires Valid(s) && Mirrored(s) && UniqueLabels(Handle(s, normalize, ev).catalog)
    ensures Mirrored(Handle(s, normalize, ev))
  {
    UniqueLabelsExtends(s.catalog, Handle(s, normalize, ev).catalog);
    match ev
    case KeyDown(key, ctrl) => HandleKeyMirror(s, normalize, key, ctrl);
    case OptionClick(x) => OptionClickMirror(s, x);
    case TagButtonClick(text) =>
      if text in s.tags {
        ValidateOptionMirror(s, s.tags[text]);
      }
    case Mutation(targetTag, added) =>
      if targetTag == "UL" && |added| > 0 {
        GenerateOptionsMirror(s, added);
      }
    case _ =>
  }

  /** The views agree after any sequence of events that leaves the labels
      unique. */
  lemma {:induction false} RunMirror(s: State, normalize: string -> string, events: seq<Event>)
    requires Valid(s) && Mirrored(s) && UniqueLabels(Run(s, normalize, events).catalog)
    ensures Mirrored(Run(s, normalize, events))
    decreases |events|
  {
    if |events| > 0 {
      var t := Handle(s, normalize, events[0]);
      UniqueLabelsExtends(t.catalog, Run(t, normalize, events[1..]).catalog);
      HandleMirror(s, normalize, events[0]);
      RunMirror(t, normalize, events[1..]);
    }
  }

  /** A connected element starts with the views in step. */
  lemma ConnectMirror(config: Config, entries: seq<Entry>)
    requires Connect(config, entries).Ok? && UniqueLabels(Connect(config, entries).value.catalog)
    ensures Mirrored(Connect(config, entries).value)
  {
    GenerateOptionsMirror(Initial(config), entries);
  }

  /** With a shared label the views drift apart: clicking the second of two
      options labelled alike selects it, but flips the first record's flag
      and gives the tag the first option's id. */
  lemma SharedLabelBreaksMirror(config: Config, text: string, a: Id, b: Id)
    requires config.multiple && config.tags
    requires a != b && a != "" && b != ""
    ensures var s := Connect(config, [Entry("LI", a, text, None), Entry("LI", b, text, None)]).value;
      var r := HandleOptionClick(s, b);
      && Mirrored(s)
      && b in r.selection.ids && a !in r.selection.ids
      && r.catalog[0].selected && !r.catalog[1].selected
      && r.tags == map[text := a]
      && !Mirrored(r)
  {
    ConnectPlainPair(config, Entry("LI", a, text, None), Entry("LI", b, text, None));
    SharedLabelClick(Connect(config, [Entry("LI", a, text, None), Entry("LI", b, text, None)]).value, text, a, b);
  }

  /** The click itself, on any valid state with those two records and
      nothing selected. */
  lemma SharedLabelClick(s: State, text: string, a: Id, b: Id)
    requires Valid(s) && s.config.multiple && s.config.tags && a != b
    requires s.catalog == [OptionData(a, text, false), OptionData(b, text, false)]
    requires s.selection == S.Empty && s.tags == map[]
    ensures Mirrored(s)
    ensures var r := HandleOptionClick(s, b);
      && b in r.selection.ids && a !in r.selection.ids
      && r.catalog[0].selected && !r.catalog[1].selected
      && r.tags == map[text := a]
      && !Mirrored(r)
  {
    var r := HandleOptionClick(s, b);
    var t := ChangeCurrent(s, Some(b));
    var u := t.(input := LabelOf(t.catalog, b));
    assert Ids(s.catalog) == [a, b];
    assert IndexOfId(s.catalog, b) == 1;
    assert LabelOf(u.catalog, b) == text;
    assert IndexOfLabel(u.catalog, text) == 0;
    assert r == ToggleTag(ToggleMultiple(u, b, 0), text, a);
    assert r.catalog[1].id in r.selection.ids;
  }

  /** In multiple mode a click toggles the clicked option's selection but
      flips the flag of, and toggles the tag for, the first record carrying
      the clicked option's label. */
  lemma ClickToggles(s: State, x: Id)
    requires Valid(s) && s.config.multiple && x in Ids(s.catalog)
    ensures var k := IndexOfLabel(s.catalog, LabelOf(s.catalog, x));
      var r := HandleOptionClick(s, x);
      && 0 <= k < |s.catalog|
      && r.catalog == s.catalog[k := s.catalog[k].(selected := !s.catalog[k].selected)]
      && r.selection == S.Update(s.selection, true, Some(x))
      && r.tags == SetTag(s.config.tags, s.tags, LabelOf(s.catalog, x), s.catalog[k].id, None)
  {
    var text := LabelOf(s.catalog, x);
    var k := ClickUnfolds(s, x);
    var v := ToggleMultiple(ChangeCurrent(s, Some(x)).(input := text), x, k);
    IdsPreserved(s.catalog, v.catalog, k);
  }

  /** A multiple-mode click is `ToggleMultiple` on the first record with the
      clicked option's label, then the toggle of that label's tag. */
  lemma ClickUnfolds(s: State, x: Id) returns (k: nat)
    requires Valid(s) && s.config.multiple && x in Ids(s.catalog)
    ensures k < |s.catalog| && k == IndexOfLabel(s.catalog, LabelOf(s.catalog, x))
    ensures HandleOptionClick(s, x) ==
      ToggleTag(ToggleMultiple(ChangeCurrent(s, Some(x)).(input := LabelOf(s.catalog, x)), x, k),
                LabelOf(s.catalog, x), s.catalog[k].id)
  {
    var text := LabelOf(s.catalog, x);
    assert s.catalog[IndexOfId(s.catalog, x)].text == text;
    k := IndexOfLabel(s.catalog, text);
  }

  /** A catalog that differs from another only in record `k`'s flag. */
  lemma IdsPreserved(a: seq<OptionData>, b: seq<OptionData>, k: nat)
    requires |a| == |b| && k < |a| && Ids(a) == Ids(b) && b[k].text == a[k].text && b[k].selected == !a[k].selected
    requires forall j :: 0 <= j < |a| && j != k ==> b[j] == a[j]
    ensures b == a[k := a[k].(selected := !a[k].selected)]
  {
    assert a[k].id == Ids(a)[k] == Ids(b)[k] == b[k].id;
  }

  /** A click on the only option of a multiple-mode element with tags: its
      flag, its selection and its tag all flip. */
  lemma SoleRecordClick(s: State, x: Id, text: string, flag: bool)
    requires Valid(s) && s.config.multiple && s.config.tags
    requires s.catalog == [OptionData(x, text, flag)]
    requires s.tags.Keys <= {text}
    ensures var r := HandleOptionClick(s, x);
      && r.catalog == [OptionData(x, text, !flag)]
      && (x in r.selection.ids <==> x !in s.selection.ids)
      && (text in r.tags <==> text !in s.tags)
      && r.tags.Keys <= {text}
  {
    assert Ids(s.catalog) == [x];
    assert IndexOfLabel(s.catalog, text) == 0;
    ClickToggles(s, x);
  }

  /** A multiple-mode element with tags connected with one
      default-selected option starts with it selected, flagged and tagged,
      and a click on it deselects, unflags and untags it together. */
  lemma DefaultClickDeselects(config: Config, x: Id, text: string)
    requires config.multiple && config.tags && x != ""
    ensures var c := Connect(config, [Entry("LI", x, text, Some(""))]);
      && c.Ok?
      && c.value.selection.ids == [x]
      && c.value.tags == map[text := x]
      && Mirrored(c.value)
      && var r := HandleOptionClick(c.value, x);
      && x !in r.selection.ids
      && r.catalog == [OptionData(x, text, false)]
      && r.tags == map[]
      && Mirrored(r)
  {
    ConnectOneDefault(config, x, text);
    ConnectMirror(config, [Entry("LI", x, text, Some(""))]);
    DefaultClickChain(Connect(config, [Entry("LI", x, text, Some(""))]).value, x, text);
  }

  /** A click on the only option, selected, flagged and tagged, of an
      element whose views agree. */
  lemma DefaultClickChain(c: State, x: Id, text: string)
    requires Valid(c) && c.config.multiple && c.config.tags && Mirrored(c)
    requires c.catalog == [OptionData(x, text, true)] && c.selection.ids == [x] && c.tags == map[text := x]
    ensures var r := HandleOptionClick(c, x);
      && x !in r.selection.ids
      && r.catalog == [OptionData(x, text, false)]
      && r.tags == map[]
      && Mirrored(r)
  {
    SoleRecordClick(c, x, text, true);
    OptionClickMirror(c, x);
  }
}

=== FILE: navigation.dfy ===
/** Keyboard navigation over the visible options: the getters
    `firstVisibleOption`, `lastVisibleOption`, `nextVisibleOption` and
    `previousVisibleOption` (combobox.js:313-345). Out-of-range array reads,
    which give `undefined` in JavaScript, give `None` here. */
module Navigation {
  import opened Base
  import opened Catalog

  function FirstVisible(visible: seq<Id>): (r: Option<Id>)
    ensures r.Some? <==> |visible| > 0
    ensures r.Some? ==> r.value == visible[0]
  {
    if |visible| == 0 then None else Some(visible[0])
  }

  function LastVisible(visible: seq<Id>): (r: Option<Id>)
    ensures r.Some? <==> |visible| > 0
    ensures r.Some? ==> r.value == visible[|visible| - 1]
  {
    if |visible| == 0 then None else Some(visible[|visible| - 1])
  }

  /** The successor of the current option, wrapping from the last visible
      option (or from no current option) to the first. A current option that
      is not visible has `findIndex` -1, so its "successor" is the first. */
  function NextVisible(visible: seq<Id>, current: Option<Id>): (r: Option<Id>)
    ensures r.Some? <==> |visible| > 0
    ensures r.Some? ==> r.value in visible
    ensures |visible| > 0 && (current.None? || current.value !in visible || current.value == visible[|visible| - 1])
      ==> r == Some(visible[0])
    ensures NoDup(visible) ==>
      forall i :: 0 <= i < |visible| - 1 && current == Some(visible[i]) ==> r == Some(visible[i + 1])
  {
    if current.None? || current == LastVisible(visible) then FirstVisible(visible)
    else
      var i := IndexOf(visible, current.value);
      if i + 1 < |visible| then Some(visible[i + 1]) else None
  }

  /** The predecessor of the current option, wrapping from the first visible
      option (or from no current option) to the last. A current option that
      is not visible has `findIndex` -1, and the source then reads index -2,
      which is `undefined`. */
  function PreviousVisible(visible: seq<Id>, current: Option<Id>): (r: Option<Id>)
    ensures |visible| > 0 ==> (r.Some? <==> current.None? || current.value in visible)
    ensures |visible| == 0 ==> r.None?
    ensures r.Some? ==> r.value in visible
    ensures |visible| > 0 && (current.None? || current.value == visible[0]) ==> r == Some(visible[|visible| - 1])
    ensures NoDup(visible) ==>
      forall i :: 0 < i < |visible| && current == Some(visible[i]) ==> r == Some(visible[i - 1])
  {
    if current.None? || current == FirstVisible(visible) then LastVisible(visible)
    else
      var i := IndexOf(visible, current.value);
      if 1 <= i then Some(visible[i - 1]) else None
  }

  /** Moving down then up (or up then down) from a visible option returns to
      it: the two wrap-arounds are inverse to each other. */
  lemma NextPreviousInverse(visible: seq<Id>, x: Id)
    requires NoDup(visible) && x in visible
    ensures PreviousVisible(visible, NextVisible(visible, Some(x))) == Some(x)
    ensures NextVisible(visible, PreviousVisible(visible, Some(x))) == Some(x)
  {
    var n := |visible|;
    var i := IndexOf(visible, x);
    if i < n - 1 {
      assert visible[i + 1] != visible[0];
    }
    if 0 < i {
      assert visible[i - 1] != visible[n - 1];
    }
  }
}

=== FILE: registration.dfy ===
/** Option registration and connection: `generateOptions` and
    `registerOption` (combobox.js:469-546) without element creation, and the
    engine part of `connectedCallback` (combobox.js:49-115): the
    configuration check, the initial validity flag and the first
    registration pass. */
module Registration {
  import opened Base
  import opened Catalog
  import opened Combobox
  import S = Selection
  import opened Tags

  /** `li.getAttribute("selected")` is truthy: present and not empty. */
  predicate SelectedAttrTruthy(e: Entry) {
    e.selectedAttr.Some? && e.selectedAttr.value != ""
  }

  /** The entry is an `LI` with a non-empty `data-id`. */
  predicate WellFormed(e: Entry) {
    e.tagName == "LI" && e.dataId != ""
  }

  /** The record `generateOptions` builds for an entry: once a default
      selection has been taken (single mode), later entries are registered
      unselected whatever their attribute says. */
  function Record(s: State, e: Entry): OptionData {
    OptionData(e.dataId, e.text, if s.defaultTaken then false else e.selectedAttr.Some?)
  }

  /** The push onto `optionsData` and the `visibleOption` push of
      `registerOption`: the record is appended to the catalog and its option
      to the visible options. */
  function Append(s: State, info: OptionData): (r: State)
    requires Valid(s) && info.id !in Ids(s.catalog)
    requires !s.config.multiple && info.selected ==>
      s.defaultTaken && forall i :: 0 <= i < |s.catalog| ==> !s.catalog[i].selected
    ensures Valid(r)
    ensures Ids(r.catalog) == Ids(s.catalog) + [info.id]
    ensures r == s.(catalog := s.catalog + [info], visible := s.visible + [info.id])
  {
    AppendValid(s, info);
    s.(catalog := s.catalog + [info], visible := s.visible + [info.id])
  }

  /** The appended record keeps the invariant: its id is fresh, and in single
      mode a default-selected record is the only flagged one. */
  lemma AppendValid(s: State, info: OptionData)
    requires Valid(s) && info.id !in Ids(s.catalog)
    requires !s.config.multiple && info.selected ==>
      s.defaultTaken && forall i :: 0 <= i < |s.catalog| ==> !s.catalog[i].selected
    ensures Ids(s.catalog + [info]) == Ids(s.catalog) + [info.id]
    ensures Valid(s.(catalog := s.catalog + [info], visible := s.visible + [info.id]))
  {
    var c := s.catalog + [info];
    var r := s.(catalog := c, visible := s.visible + [info.id]);
    IdsSnoc(s.catalog, info);
    SubsequenceSnoc(s.visible, Ids(s.catalog), info.id);
    assert UniqueIds(c) by {
      var ids := Ids(c);
      forall i, j | 0 <= i < j < |ids| ensures ids[i] != ids[j] {
        if j == |ids| - 1 {
          assert ids[i] == Ids(s.catalog)[i];
        } else {
          assert ids[i] == Ids(s.catalog)[i] && ids[j] == Ids(s.catalog)[j];
        }
      }
    }
    if !s.config.multiple {
      assert AtMostOneDefault(c) by {
        forall i, j | 0 <= i < j < |c| && c[i].selected ensures !c[j].selected {
          assert c[i] == s.catalog[i];
        }
      }
      assert forall i :: 0 <= i < |c| && c[i].selected ==> s.defaultTaken by {
        forall i | 0 <= i < |c| && c[i].selected ensures s.defaultTaken {
          if i < |s.catalog| {
            assert c[i] == s.catalog[i];
          }
        }
      }
    }
    assert forall x :: x in Ids(s.catalog) ==> x in Ids(c);
  }

  /** The `data.selected` branch of `registerOption`: single mode makes the
      label the value and the input text and the option the current one;
      both modes then pass the option to `updateSelectedOptions`. */
  function SelectDefault(s: State, x: Id, text: string): (r: State)
    requires Valid(s) && x in Ids(s.catalog) && x !in s.selection.ids
    ensures Valid(r)
    ensures r.catalog == s.catalog && r.visible == s.visible && r.tags == s.tags
    ensures r.config == s.config && r.log == s.log && r.defaultTaken == s.defaultTaken
    ensures r.selection == S.Update(s.selection, s.config.multiple, Some(x))
    ensures !s.config.multiple ==> r.value == text && r.input == text && r.current == Some(x)
    ensures s.config.multiple ==> r.value == s.value && r.input == s.input && r.current == s.current
    ensures r.open == s.open
  {
    var t := if !s.config.multiple then s.(value := text, input := text, current := Some(x)) else s;
    UpdateSelectedOptions(t, Some(x))
  }

  /** The closing `setTag(data.value, data.id, data.selected)` of
      `registerOption`. */
  function ForceTag(s: State, text: string, x: Id, on: bool): (r: State)
    requires Valid(s) && x in Ids(s.catalog)
    ensures Valid(r)
    ensures r == s.(tags := r.tags)
    ensures r.config.tags ==> (text in r.tags <==> on)
    ensures r.config.tags && on && text !in s.tags ==> r.tags[text] == x
    ensures forall l :: l != text ==> (l in r.tags <==> l in s.tags) && (l in r.tags ==> r.tags[l] == s.tags[l])
  {
    s.(tags := SetTag(s.config.tags, s.tags, text, x, Some(on)))
  }

  /** The push onto `optionsData` together with `registerOption`: the
      record joins the catalog and the visible options; a default-selected
      record is selected (in single mode it also becomes the value, the input
      text and the current option); its tag is forced to its `selected`
      flag. */
  function RegisterOption(s: State, info: OptionData): (r: State)
    requires Valid(s) && info.id !in Ids(s.catalog)
    requires !s.config.multiple && info.selected ==>
      s.defaultTaken && forall i :: 0 <= i < |s.catalog| ==> !s.catalog[i].selected
    ensures Valid(r)
    ensures r.catalog == s.catalog + [info] && r.visible == s.visible + [info.id]
    ensures r.config == s.config && r.log == s.log && r.defaultTaken == s.defaultTaken
    ensures info.id in r.selection.ids <==> info.selected
    ensures info.selected && !s.config.multiple ==>
      r.value == info.text && r.input == info.text && r.current == Some(info.id) && r.selection.ids == [info.id]
    ensures !info.selected ==> r.selection == s.selection && r.current == s.current && r.value == s.value
    ensures s.config.multiple ==> forall y :: y != info.id ==> (y in r.selection.ids <==> y in s.selection.ids)
    ensures r.open == s.open
    ensures !(info.selected && !s.config.multiple) ==> r.input == s.input && r.value == s.value && r.current == s.current
    ensures r.config.tags ==> (info.text in r.tags <==> info.selected)
    ensures r.config.tags && info.selected && info.text !in s.tags ==> r.tags[info.text] == info.id
    ensures forall l :: l != info.text ==> (l in r.tags <==> l in s.tags) && (l in r.tags ==> r.tags[l] == s.tags[l])
  {
    ForceTag(Admit(s, info), info.text, info.id, info.selected)
  }

  /** `registerOption` before its closing `setTag`: the record is appended
      and, when default-selected, selected. */
  function Admit(s: State, info: OptionData): (r: State)
    requires Valid(s) && info.id !in Ids(s.catalog)
    requires !s.config.multiple && info.selected ==>
      s.defaultTaken && forall i :: 0 <= i < |s.catalog| ==> !s.catalog[i].selected
    ensures Valid(r) && info.id in Ids(r.catalog) && r.tags == s.tags
    ensures r.catalog == s.catalog + [info] && r.visible == s.visible + [info.id]
    ensures r.config == s.config && r.log == s.log && r.defaultTaken == s.defaultTaken
    ensures info.id in r.selection.ids <==> info.selected
    ensures info.selected && !s.config.multiple ==>
      r.value == info.text && r.input == info.text && r.current == Some(info.id) && r.selection.ids == [info.id]
    ensures !info.selected ==> r.selection == s.selection && r.current == s.current && r.value == s.value
    ensures s.config.multiple ==> forall y :: y != info.id ==> (y in r.selection.ids <==> y in s.selection.ids)
    ensures r.open == s.open
    ensures !(info.selected && !s.config.multiple) ==> r.input == s.input && r.value == s.value && r.current == s.current
  {
    var t := Append(s, info);
    assert info.id !in t.selection.ids;
    if info.selected then
      S.UpdateAddsOne(t.selection, info.id);
      SelectDefault(t, info.id, info.text)
    else
      t
  }

  /** The checks `generateOptions` makes before the duplicate test: a
      truthy `selected` attribute after the default was taken is reported,
      and in single mode a default-selected record takes the default. */
  function NoteDefault(s: State, e: Entry): (r: State)
    requires Valid(s)
    ensures Valid(r)
    ensures r == s.(log := r.log, defaultTaken := r.defaultTaken)
    ensures r.log == s.log + (if s.defaultTaken && SelectedAttrTruthy(e) then [ExtraDefaultSelected] else [])
    ensures r.defaultTaken <==> s.defaultTaken || (!s.config.multiple && e.selectedAttr.Some?)
    ensures s.defaultTaken ==> !Record(s, e).selected
    ensures !s.config.multiple && Record(s, e).selected ==>
      r.defaultTaken && forall i :: 0 <= i < |s.catalog| ==> !s.catalog[i].selected
  {
    var extra := if s.defaultTaken && SelectedAttrTruthy(e) then [ExtraDefaultSelected] else [];
    var info := Record(s, e);
    s.(log := s.log + extra, defaultTaken := s.defaultTaken || (info.selected && !s.config.multiple))
  }

  /** A well-formed entry: the default is noted first, then a duplicate id
      is reported and dropped (the first registration stays authoritative)
      and a fresh id is registered. */
  function RegisterWellFormed(s: State, e: Entry): (r: State)
    requires Valid(s) && WellFormed(e)
    ensures Valid(r)
    ensures r.config == s.config
    ensures e.dataId in Ids(s.catalog) ==>
      && r == s.(log := r.log, defaultTaken := r.defaultTaken)
      && |r.log| > 0 && r.log[|r.log| - 1] == DuplicateId(e.dataId, LabelOf(s.catalog, e.dataId), e.text)
    ensures e.dataId !in Ids(s.catalog) ==>
      r.catalog == s.catalog + [Record(s, e)] && r.visible == s.visible + [e.dataId]
    ensures r.defaultTaken <==> s.defaultTaken || (!s.config.multiple && e.selectedAttr.Some?)
  {
    var t := NoteDefault(s, e);
    if e.dataId in Ids(s.catalog) then t.(log := t.log + [DuplicateId(e.dataId, LabelOf(s.catalog, e.dataId), e.text)])
    else RegisterOption(t, Record(s, e))
  }

  /** One iteration of `generateOptions`. A non-`LI` entry or one without an
      id is reported and dropped; a well-formed one is registered unless its
      id is taken. The catalog grows by at most the entry's record, and an
      entry that adds no record leaves a diagnostic. */
  function RegisterEntry(s: State, e: Entry): (r: State)
    requires Valid(s)
    ensures Valid(r)
    ensures r.config == s.config
    ensures e.tagName != "LI" ==> r == s.(log := s.log + [NotListItem])
    ensures e.tagName == "LI" && e.dataId == "" ==> r == s.(log := s.log + [MissingId])
    ensures r.catalog == s.catalog || (WellFormed(e) && r.catalog == s.catalog + [Record(s, e)])
    ensures |r.log| > |s.log| || r.catalog == s.catalog + [Record(s, e)]
  {
    if e.tagName != "LI" then s.(log := s.log + [NotListItem])
    else if e.dataId == "" then s.(log := s.log + [MissingId])
    else RegisterWellFormed(s, e)
  }

  /** `generateOptions(elements)`: the entries are registered in order; the
      catalog only grows, by the well-formed entries with fresh ids. */
  function GenerateOptions(s: State, entries: seq<Entry>): (r: State)
    requires Valid(s)
    ensures Valid(r)
    ensures r.config == s.config
    ensures |s.catalog| <= |r.catalog| <= |s.catalog| + |entries| && r.catalog[..|s.catalog|] == s.catalog
    ensures Extends(s.catalog, r.catalog)
    ensures |r.log| + |r.catalog| >= |s.log| + |s.catalog| + |entries|
    decreases |entries|
  {
    if |entries| == 0 then s
    else
      var t := RegisterEntry(s, entries[0]);
      var r := GenerateOptions(t, entries[1..]);
      PrefixGrowth(s.catalog, t.catalog, r.catalog, Record(s, entries[0]), |entries| - 1);
      r
  }

  /** Registering a non-empty batch registers its first entry, then the
      rest. */
  lemma GenerateOptionsCons(s: State, e: Entry, rest: seq<Entry>)
    requires Valid(s)
    ensures GenerateOptions(s, [e] + rest) == GenerateOptions(RegisterEntry(s, e), rest)
  {
    assert ([e] + rest)[0] == e && ([e] + rest)[1..] == rest;
  }

  /** Registering a batch of one entry is registering that entry. */
  lemma GenerateOptionsOne(s: State, e: Entry)
    requires Valid(s)
    ensures GenerateOptions(s, [e]) == RegisterEntry(s, e)
  {
    GenerateOptionsCons(s, e, []);
    assert [e] + [] == [e];
  }

  /** One registration step followed by the rest keeps the earlier catalog
      as a prefix and adds at most one record per entry. */
  lemma PrefixGrowth(a: seq<OptionData>, b: seq<OptionData>, c: seq<OptionData>, x: OptionData, n: nat)
    requires b == a || b == a + [x]
    requires |b| <= |c| <= |b| + n && c[..|b|] == b
    ensures |a| <= |c| <= |a| + n + 1 && c[..|a|] == a && Extends(a, c)
  {
    assert c[..|a|] == b[..|a|];
  }

  /** Thrown by `connectedCallback` for `tags` without `multiple`. */
  datatype ConfigError = TagsWithoutMultiple

  /** The element as the constructor leaves it, with the validity flag set
      by `connectedCallback`'s `setRequiredValidity`. */
  function Initial(config: Config): (r: State)
    requires config.tags ==> config.multiple
    ensures Valid(r)
    ensures r.catalog == [] && r.selection == S.Empty && r.tags == map[] && r.value == "" && !r.open
  {
    State(config, [], [], None, S.Empty, map[], "", "", false, config.required, false, [])
  }

  /** `connectedCallback`: refuses `tags` without `multiple`, otherwise
      registers the light-DOM `li` children in document order. */
  function Connect(config: Config, entries: seq<Entry>): (r: Result<State, ConfigError>)
    ensures r.Err? <==> config.tags && !config.multiple
    ensures r.Ok? ==> Valid(r.value) && r.value.config == config && |r.value.catalog| <= |entries|
  {
    if config.tags && !config.multiple then Err(TagsWithoutMultiple)
    else Ok(GenerateOptions(Initial(config), entries))
  }

  /** Connecting with one default-selected entry selects it, flags it and,
      with tags on, gives it its tag. */
  lemma ConnectOneDefault(config: Config, x: Id, text: string)
    requires config.tags ==> config.multiple
    requires x != ""
    ensures var c := Connect(config, [Entry("LI", x, text, Some(""))]);
      && c.Ok?
      && c.value.catalog == [OptionData(x, text, true)]
      && c.value.selection.ids == [x]
      && c.value.tags == (if config.tags then map[text := x] else map[])
  {
    var e := Entry("LI", x, text, Some(""));
    GenerateOptionsOne(Initial(config), e);
    FirstDefault(config, e);
  }

  /** The first registration, of a default-selected entry. */
  lemma FirstDefault(config: Config, e: Entry)
    requires config.tags ==> config.multiple
    requires WellFormed(e) && e.selectedAttr.Some?
    ensures var s := RegisterEntry(Initial(config), e);
      && s.catalog == [OptionData(e.dataId, e.text, true)]
      && s.selection.ids == [e.dataId]
      && s.tags == (if config.tags then map[e.text := e.dataId] else map[])
  {
    var s0 := Initial(config);
    RegisterDefault(s0, e);
    var s := RegisterEntry(s0, e);
    assert s.selection.ids == [e.dataId] by {
      assert s == RegisterOption(NoteDefault(s0, e), Record(s0, e));
      assert S.Update(S.Empty, config.multiple, Some(e.dataId)).ids == [e.dataId];
    }
  }

  /** In single mode the catalog ends up with at most one default-selected
      record however many entries carry the attribute. */
  lemma ConnectSingleDefault(config: Config, entries: seq<Entry>)
    requires !config.multiple && !config.tags
    ensures Connect(config, entries).Ok?
    ensures AtMostOneDefault(Connect(config, entries).value.catalog)
    ensures |Connect(config, entries).value.selection.ids| <= 1
  {
  }

  /** Registering a batch in two parts is registering it at once: an
      observed mutation continues exactly where connection left off. */
  lemma {:induction false} GenerateOptionsAppend(s: State, a: seq<Entry>, b: seq<Entry>)
    requires Valid(s)
    ensures GenerateOptions(s, a + b) == GenerateOptions(GenerateOptions(s, a), b)
    decreases |a|
  {
    if |a| > 0 {
      assert (a + b)[0] == a[0];
      assert (a + b)[1..] == a[1..] + b;
      GenerateOptionsAppend(RegisterEntry(s, a[0]), a[1..], b);
    } else {
      assert a + b == b;
    }
  }

  /** A fresh entry that is not default-selected (no `selected` attribute,
      or one arriving after the default was taken) is registered unselected,
      silently, and leaves the selection alone. */
  lemma RegisterUnselected(s: State, e: Entry)
    requires Valid(s) && WellFormed(e) && e.dataId !in Ids(s.catalog)
    requires e.selectedAttr.None? || (s.defaultTaken && !SelectedAttrTruthy(e))
    ensures var r := RegisterEntry(s, e);
      && r.catalog == s.catalog + [OptionData(e.dataId, e.text, false)]
      && r.selection == s.selection && r.log == s.log && r.defaultTaken == s.defaultTaken
      && (e.text !in s.tags ==> r.tags == s.tags)
  {
    assert RegisterEntry(s, e) == RegisterOption(NoteDefault(s, e), Record(s, e));
  }

  /** The first default-selected entry is registered selected: it joins
      the selection, and in single mode its label becomes the value and the
      input text and it becomes the current option. */
  lemma RegisterDefault(s: State, e: Entry)
    requires Valid(s) && WellFormed(e) && e.dataId !in Ids(s.catalog)
    requires !s.defaultTaken && e.selectedAttr.Some?
    ensures var r := RegisterEntry(s, e);
      && r.catalog == s.catalog + [OptionData(e.dataId, e.text, true)]
      && e.dataId in r.selection.ids
      && r.log == s.log
      && (!s.config.multiple ==>
            r.value == e.text && r.input == e.text && r.current == Some(e.dataId) && r.selection.ids == [e.dataId])
  {
    assert RegisterEntry(s, e) == RegisterOption(NoteDefault(s, e), Record(s, e));
  }

  /** An entry whose id is taken is dropped with a report; the first
      registration stays as it was. */
  lemma RegisterDuplicate(s: State, e: Entry)
    requires Valid(s) && WellFormed(e) && e.dataId in Ids(s.catalog) && e.selectedAttr.None?
    ensures RegisterEntry(s, e) == s.(log := s.log + [DuplicateId(e.dataId, LabelOf(s.catalog, e.dataId), e.text)])
  {
  }

  /** A default-selected entry whose id is taken is dropped with a report,
      but in single mode it still takes the default. */
  lemma RegisterDuplicateDefault(s: State, e: Entry)
    requires Valid(s) && WellFormed(e) && e.dataId in Ids(s.catalog)
    requires !s.config.multiple && !s.defaultTaken && e.selectedAttr.Some?
    ensures var r := RegisterEntry(s, e);
      && r == s.(log := r.log, defaultTaken := true)
      && r.log == s.log + [DuplicateId(e.dataId, LabelOf(s.catalog, e.dataId), e.text)]
  {
  }

  /** The first registration, of a plain entry. */
  lemma FirstPlain(s: State, e: Entry)
    requires Valid(s) && s.catalog == [] && WellFormed(e) && e.selectedAttr.None?
    ensures var r := RegisterEntry(s, e);
      && r.catalog == [OptionData(e.dataId, e.text, false)]
      && r.selection == s.selection && r.log == s.log && r.defaultTaken == s.defaultTaken
      && (e.text !in s.tags ==> r.tags == s.tags)
  {
    RegisterUnselected(s, e);
  }

  /** A second registration, of an entry registered unselected. */
  lemma SecondPlain(s: State, o: OptionData, e: Entry)
    requires Valid(s) && s.catalog == [o] && WellFormed(e) && e.dataId != o.id
    requires e.selectedAttr.None? || (s.defaultTaken && !SelectedAttrTruthy(e))
    ensures var r := RegisterEntry(s, e);
      && r.catalog == [o, OptionData(e.dataId, e.text, false)]
      && r.selection == s.selection && r.log == s.log && r.defaultTaken == s.defaultTaken
      && (e.text !in s.tags ==> r.tags == s.tags)
  {
    assert Ids(s.catalog) == [o.id];
    RegisterUnselected(s, e);
  }

  /** A second registration, of the first default-selected entry. */
  lemma SecondDefault(s: State, o: OptionData, e: Entry)
    requires Valid(s) && s.catalog == [o] && WellFormed(e) && e.dataId != o.id
    requires !s.defaultTaken && e.selectedAttr.Some?
    ensures var r := RegisterEntry(s, e);
      && r.catalog == [o, OptionData(e.dataId, e.text, true)]
      && e.dataId in r.selection.ids
      && r.log == s.log
      && (!s.config.multiple ==>
            r.value == e.text && r.input == e.text && r.current == Some(e.dataId) && r.selection.ids == [e.dataId])
  {
    assert Ids(s.catalog) == [o.id];
    RegisterDefault(s, e);
  }

  /** A second registration, of a default-selected entry repeating the
      only id, in single mode. */
  lemma SecondDuplicateDefault(s: State, o: OptionData, e: Entry)
    requires Valid(s) && s.catalog == [o] && WellFormed(e) && e.dataId == o.id
    requires !s.config.multiple && !s.defaultTaken && e.selectedAttr.Some?
    ensures var r := RegisterEntry(s, e);
      && r == s.(log := r.log, defaultTaken := true)
      && r.log == s.log + [DuplicateId(o.id, o.text, e.text)]
  {
    assert Ids(s.catalog) == [o.id];
    RegisterDuplicateDefault(s, e);
  }

  /** The default slot is taken before the duplicate check: in single mode
      a discarded duplicate carrying `selected` still takes it, so a later
      option written `<li selected>` is registered unselected and nothing
      ends up selected. */
  lemma DuplicateTakesDefault(config: Config, e0: Entry, e1: Entry, e2: Entry)
    requires !config.multiple && !config.tags
    requires WellFormed(e0) && e0.selectedAttr.None?
    requires e1.tagName == "LI" && e1.dataId == e0.dataId && e1.selectedAttr.Some?
    requires WellFormed(e2) && e2.dataId != e0.dataId && e2.selectedAttr == Some("")
    ensures var r := Connect(config, [e0, e1, e2]);
      && r.Ok?
      && r.value.catalog == [OptionData(e0.dataId, e0.text, false), OptionData(e2.dataId, e2.text, false)]
      && r.value.selection == S.Empty
      && r.value.log == [DuplicateId(e0.dataId, e0.text, e1.text)]
  {
    ConnectThree(config, e0, e1, e2);
    DuplicateDefaultChain(Initial(config), e0, e1, e2);
  }

  /** The registrations of `DuplicateTakesDefault`, from any empty
      single-mode element. */
  lemma DuplicateDefaultChain(s0: State, e0: Entry, e1: Entry, e2: Entry)
    requires Valid(s0) && !s0.config.multiple && s0.catalog == [] && s0.selection == S.Empty
    requires s0.log == [] && !s0.defaultTaken
    requires WellFormed(e0) && e0.selectedAttr.None?
    requires e1.tagName == "LI" && e1.dataId == e0.dataId && e1.selectedAttr.Some?
    requires WellFormed(e2) && e2.dataId != e0.dataId && e2.selectedAttr == Some("")
    ensures var r := RegisterEntry(RegisterEntry(RegisterEntry(s0, e0), e1), e2);
      && r.catalog == [OptionData(e0.dataId, e0.text, false), OptionData(e2.dataId, e2.text, false)]
      && r.selection == S.Empty
      && r.log == [DuplicateId(e0.dataId, e0.text, e1.text)]
  {
    var o0 := OptionData(e0.dataId, e0.text, false);
    FirstPlain(s0, e0);
    var s1 := RegisterEntry(s0, e0);
    SecondDuplicateDefault(s1, o0, e1);
    SecondPlain(RegisterEntry(s1, e1), o0, e2);
  }

  /** Registering a batch of two entries registers one, then the other. */
  lemma GenerateOptionsPair(s: State, e0: Entry, e1: Entry)
    requires Valid(s)
    ensures GenerateOptions(s, [e0, e1]) == RegisterEntry(RegisterEntry(s, e0), e1)
  {
    assert [e0, e1] == [e0] + [e1];
    GenerateOptionsCons(s, e0, [e1]);
    GenerateOptionsOne(RegisterEntry(s, e0), e1);
  }

  /** Connecting with two entries registers one, then the other. */
  lemma ConnectTwo(config: Config, e0: Entry, e1: Entry)
    requires config.tags ==> config.multiple
    ensures Connect(config, [e0, e1]) == Ok(RegisterEntry(RegisterEntry(Initial(config), e0), e1))
  {
    GenerateOptionsPair(Initial(config), e0, e1);
  }

  /** Two plain entries with distinct ids: both registered unselected,
      nothing selected. */
  lemma ConnectPlainPair(config: Config, e0: Entry, e1: Entry)
    requires config.tags ==> config.multiple
    requires WellFormed(e0) && WellFormed(e1) && e0.dataId != e1.dataId
    requires e0.selectedAttr.None? && e1.selectedAttr.None?
    ensures var c := Connect(config, [e0, e1]);
      && c.Ok?
      && c.value.catalog == [OptionData(e0.dataId, e0.text, false), OptionData(e1.dataId, e1.text, false)]
      && c.value.selection == S.Empty
      && c.value.tags == map[]
  {
    ConnectTwo(config, e0, e1);
    PlainPair(Initial(config), e0, e1);
  }

  /** From an empty element, two plain entries with distinct ids. */
  lemma PlainPair(s0: State, e0: Entry, e1: Entry)
    requires Valid(s0) && s0.catalog == [] && s0.selection == S.Empty && s0.tags == map[]
    requires WellFormed(e0) && WellFormed(e1) && e0.dataId != e1.dataId
    requires e0.selectedAttr.None? && e1.selectedAttr.None?
    ensures var s := RegisterEntry(RegisterEntry(s0, e0), e1);
      && s.catalog == [OptionData(e0.dataId, e0.text, false), OptionData(e1.dataId, e1.text, false)]
      && s.selection == S.Empty
      && s.tags == map[]
  {
    FirstPlain(s0, e0);
    SecondPlain(RegisterEntry(s0, e0), OptionData(e0.dataId, e0.text, false), e1);
  }

  /** Connecting with three entries registers them in order. */
  lemma ConnectThree(config: Config, e0: Entry, e1: Entry, e2: Entry)
    requires config.tags ==> config.multiple
    ensures Connect(config, [e0, e1, e2]) == Ok(RegisterEntry(RegisterEntry(RegisterEntry(Initial(config), e0), e1), e2))
  {
    GenerateOptionsTriple(Initial(config), e0, e1, e2);
  }

  /** Registering a batch of three entries registers them in order. */
  lemma GenerateOptionsTriple(s: State, e0: Entry, e1: Entry, e2: Entry)
    requires Valid(s)
    ensures GenerateOptions(s, [e0, e1, e2]) == RegisterEntry(RegisterEntry(RegisterEntry(s, e0), e1), e2)
  {
    assert [e0, e1, e2] == [e0] + [e1, e2];
    GenerateOptionsCons(s, e0, [e1, e2]);
    GenerateOptionsPair(RegisterEntry(s, e0), e1, e2);
  }
}

=== FILE: scenarios.dfy ===
/** Worked examples: the filtering rules instantiated with the concrete
    normaliser of `Text`, and small catalogs run through connection and a
    few events. The configuration is a parameter wherever only some of its
    fields matter. */
module Scenarios {
  import opened Base
  import opened Catalog
  import opened Filtering
  import opened Navigation
  import opened Text
  import opened Combobox
  import opened Registration
  import opened Controller
  import opened Mirror
  import S = Selection

  /** A search text made of white space only (the input as the user left it
      after typing spaces) hides nothing in list mode. */
  lemma BlankSearchShowsAll(cat: seq<OptionData>, input: string)
    requires forall i :: 0 <= i < |input| ==> IsJsWhitespace(input[i])
    ensures ListFilter(cat, Normalize, input) == Ids(cat)
  {
    NormalizeBlank(input);
    ListFilterEmptyInput(cat, Normalize, input);
  }

  /** Searching "oeuvre" finds the option labelled "Œuvre". */
  lemma LigatureSearch(a: Id)
    ensures ListFilter([OptionData(a, "\U{152}uvre", false)], Normalize, "oeuvre") == [a]
  {
    NormalizeLigatures();
    assert Normalized("oeuvre");
    NormalizeFixesNormalized("oeuvre");
    var o := OptionData(a, "\U{152}uvre", false);
    assert Includes(Normalize(o.text), Normalize("oeuvre"));
    assert [o][..0] == [];
  }

  /** The two authored options of the examples below: "Apple" and a
      default-selected "Banana". */
  function Fruits(): seq<Entry> {
    [Entry("LI", "1", "Apple", None), Entry("LI", "2", "Banana", Some(""))]
  }

  /** Connecting in single mode: the default-selected option becomes the
      value, the input text, the current option and the selection. */
  lemma ConnectFruitsSingle(config: Config)
    requires !config.multiple && !config.tags
    ensures Connect(config, Fruits()).Ok?
    ensures var s := Connect(config, Fruits()).value;
      && s.catalog == [OptionData("1", "Apple", false), OptionData("2", "Banana", true)]
      && s.value == "Banana" && s.input == "Banana" && s.current == Some("2")
      && s.selection.ids == ["2"] && s.log == []
  {
    ConnectPlainThenDefault(config, Entry("LI", "1", "Apple", None), Entry("LI", "2", "Banana", Some("")));
  }

  /** Single mode, a plain entry then a default-selected one. */
  lemma ConnectPlainThenDefault(config: Config, e0: Entry, e1: Entry)
    requires !config.multiple && !config.tags
    requires WellFormed(e0) && WellFormed(e1) && e0.dataId != e1.dataId
    requires e0.selectedAttr.None? && e1.selectedAttr.Some?
    ensures Connect(config, [e0, e1]).Ok?
    ensures var s := Connect(config, [e0, e1]).value;
      && s.catalog == [OptionData(e0.dataId, e0.text, false), OptionData(e1.dataId, e1.text, true)]
      && s.value == e1.text && s.input == e1.text && s.current == Some(e1.dataId)
      && s.selection.ids == [e1.dataId] && s.log == []
  {
    ConnectTwo(config, e0, e1);
    PlainThenDefault(Initial(config), e0, e1);
  }

  /** From an empty single-mode element, a plain entry then a
      default-selected one. */
  lemma PlainThenDefault(s0: State, e0: Entry, e1: Entry)
    requires Valid(s0) && !s0.config.multiple && s0.catalog == [] && s0.selection == S.Empty
    requires s0.log == [] && !s0.defaultTaken
    requires WellFormed(e0) && WellFormed(e1) && e0.dataId != e1.dataId
    requires e0.selectedAttr.None? && e1.selectedAttr.Some?
    ensures var s := RegisterEntry(RegisterEntry(s0, e0), e1);
      && s.catalog == [OptionData(e0.dataId, e0.text, false), OptionData(e1.dataId, e1.text, true)]
      && s.value == e1.text && s.input == e1.text && s.current == Some(e1.dataId)
      && s.selection.ids == [e1.dataId] && s.log == []
  {
    FirstPlain(s0, e0);
    SecondDefault(RegisterEntry(s0, e0), OptionData(e0.dataId, e0.text, false), e1);
  }

  /** Normalising a word of ASCII letters only lower-cases it: `l` is the
      word with every letter lower-cased. */
  lemma NormalizeLetters(w: string, l: string)
    requires |w| > 0 && forall i :: 0 <= i < |w| ==> 'a' <= w[i] <= 'z' || 'A' <= w[i] <= 'Z'
    requires |l| == |w| && forall i :: 0 <= i < |w| ==> l[i] == LowerChar(w[i])
    ensures Normalize(w) == l
  {
    assert forall i :: 0 <= i < |l| ==> 'a' <= l[i] <= 'z' by {
      forall i | 0 <= i < |l| ensures 'a' <= l[i] <= 'z' {
        LowerLetter(w[i]);
      }
    }
    assert Lower(w) == l;
    NormalizeLowerWord(l);
  }

  /** Lower-casing an ASCII letter gives a lower-case ASCII letter. */
  lemma LowerLetter(c: char)
    requires 'a' <= c <= 'z' || 'A' <= c <= 'Z'
    ensures 'a' <= LowerChar(c) <= 'z'
  {
  }

  /** A non-empty word of lower-case ASCII letters is its own
      normalisation. */
  lemma NormalizeLowerWord(l: string)
    requires |l| > 0 && forall i :: 0 <= i < |l| ==> 'a' <= l[i] <= 'z'
    ensures Normalized(l)
  {
  }

  /** The three words of the search example, normalised. */
  lemma NormalizeFruitWords()
    ensures Normalize("Apple") == "apple" && Normalize("Banana") == "banana" && Normalize("ban") == "ban"
  {
    NormalizeApple();
    NormalizeBanana();
    NormalizeBan();
  }

  lemma NormalizeBan()
    ensures Normalize("ban") == "ban"
  {
    NormalizeLetters("ban", "ban");
  }

  lemma NormalizeApple()
    ensures Normalize("Apple") == "apple"
  {
    NormalizeLetters("Apple", "apple");
  }

  lemma NormalizeBanana()
    ensures Normalize("Banana") == "banana"
  {
    NormalizeLetters("Banana", "banana");
  }

  /** Over the two fruits, "ban" matches "Banana" only. */
  lemma FruitsMatchingBan(a: OptionData, b: OptionData)
    requires a.text == "Apple" && b.text == "Banana"
    ensures ListFilter([a, b], Normalize, "ban") == [b.id]
  {
    NormalizeApple();
    NormalizeBanana();
    NormalizeBan();
    AppleLacksBan();
    BananaHasBan();
    ListFilterPair(a, b, Normalize, "ban");
  }

  lemma AppleLacksBan()
    ensures !Includes("apple", "ban")
  {
    IncludesNeedsFirst("apple", "ban");
  }

  lemma BananaHasBan()
    ensures Includes("banana", "ban")
  {
    assert "ban" <= "banana";
  }

  /** List filtering over two records. */
  lemma ListFilterPair(a: OptionData, b: OptionData, normalize: string -> string, input: string)
    ensures ListFilter([a, b], normalize, input) ==
      (if Matches(normalize, a, input) then [a.id] else []) + (if Matches(normalize, b, input) then [b.id] else [])
  {
    assert [a, b][..1] == [a] && [a][..0] == [];
  }

  /** Typing "ban" in list mode shows only "Banana", and ArrowDown then
      puts the cursor on it. */
  lemma SearchBanThenArrowDown(config: Config)
    requires !config.multiple && !config.tags && config.autocomplete == List
    ensures Connect(config, Fruits()).Ok?
    ensures var s := HandleInput(Connect(config, Fruits()).value, Normalize, "ban");
      && s.visible == ["2"] && s.open
      && ArrowDown(s, Normalize).current == Some("2")
  {
    ConnectFruitsSingle(config);
    var s0 := Connect(config, Fruits()).value;
    FruitsMatchingBan(s0.catalog[0], s0.catalog[1]);
    assert s0.catalog == [s0.catalog[0], s0.catalog[1]];
    var s := HandleInput(s0, Normalize, "ban");
    assert s.visible == ["2"];
    ArrowDownSingleton(s, Normalize, "2");
  }

  /** With the list box open on a single visible option, ArrowDown lands
      on it. */
  lemma ArrowDownSingleton(s: State, normalize: string -> string, x: Id)
    requires Valid(s) && s.open && s.visible == [x]
    ensures ArrowDown(s, normalize).current == Some(x)
  {
  }

  /** Connecting with a duplicate id keeps the first option, reports the
      second, and raises nothing. */
  lemma DuplicateIdKeepsFirst(config: Config)
    requires !config.tags
    ensures Connect(config, [Entry("LI", "1", "Apple", None), Entry("LI", "1", "Apricot", None)]).Ok?
    ensures var s := Connect(config, [Entry("LI", "1", "Apple", None), Entry("LI", "1", "Apricot", None)]).value;
      && s.catalog == [OptionData("1", "Apple", false)]
      && s.log == [DuplicateId("1", "Apple", "Apricot")]
  {
    var e0 := Entry("LI", "1", "Apple", None);
    var e1 := Entry("LI", "1", "Apricot", None);
    ConnectTwo(config, e0, e1);
    var s0 := Initial(config);
    var s1 := RegisterEntry(s0, e0);
    RegisterUnselected(s0, e0);
    RegisterDuplicate(s1, e1);
    assert LabelOf(s1.catalog, "1") == "Apple";
  }

  /** One click in multiple mode with tags, on a state whose two options
      are "Apple" and "Banana": the views stay in step, the labels stay
      unique, and only the clicked option changes its selection. */
  lemma FruitClick(s: State, x: Id)
    requires Valid(s) && Mirrored(s) && s.config.multiple
    requires |s.catalog| == 2 && s.catalog[0].text == "Apple" && s.catalog[1].text == "Banana"
    requires x in Ids(s.catalog)
    ensures var r := HandleOptionClick(s, x);
      && Valid(r) && Mirrored(r)
      && |r.catalog| == 2 && r.catalog[0].text == "Apple" && r.catalog[1].text == "Banana"
      && Ids(r.catalog) == Ids(s.catalog)
      && (x in r.selection.ids <==> x !in s.selection.ids)
      && forall y :: y != x ==> (y in r.selection.ids <==> y in s.selection.ids)
  {
    OptionClickMirror(s, x);
  }

  /** Connecting "Apple" and "Banana" in multiple mode with tags: nothing
      selected, the views in step. */
  lemma ConnectFruitsMultiple(config: Config)
    requires config.multiple && config.tags
    ensures var s0 := Connect(config, [Entry("LI", "1", "Apple", None), Entry("LI", "2", "Banana", None)]);
      && s0.Ok? && Valid(s0.value) && Mirrored(s0.value)
      && s0.value.catalog == [OptionData("1", "Apple", false), OptionData("2", "Banana", false)]
      && s0.value.selection.ids == []
  {
    ConnectPlainPair(config, Entry("LI", "1", "Apple", None), Entry("LI", "2", "Banana", None));
    ConnectPlainPairMirrored(config, Entry("LI", "1", "Apple", None), Entry("LI", "2", "Banana", None));
  }

  /** Two plain entries with distinct labels connect with the views in
      step. */
  lemma ConnectPlainPairMirrored(config: Config, e0: Entry, e1: Entry)
    requires config.tags ==> config.multiple
    requires WellFormed(e0) && WellFormed(e1) && e0.dataId != e1.dataId && e0.text != e1.text
    requires e0.selectedAttr.None? && e1.selectedAttr.None?
    ensures Connect(config, [e0, e1]).Ok? && Mirrored(Connect(config, [e0, e1]).value)
  {
    ConnectPlainPair(config, e0, e1);
    UniqueLabelsPair(OptionData(e0.dataId, e0.text, false), OptionData(e1.dataId, e1.text, false));
    ConnectMirror(config, [e0, e1]);
  }

  lemma UniqueLabelsPair(a: OptionData, b: OptionData)
    requires a.text != b.text
    ensures UniqueLabels([a, b])
  {
  }

  /** A repeat-free sequence whose only member is `x` is `[x]`. */
  lemma NoDupOnly<T>(ids: seq<T>, x: T)
    requires NoDup(ids) && forall y :: y in ids <==> y == x
    ensures ids == [x]
  {
    assert x in ids;
    var k := if |ids| > 1 then 1 else 0;
    assert ids[0] in ids && ids[k] in ids;
  }

  /** With the views in step and only "2" selected, the selection is
      exactly ["2"] and the only tag is "Banana", carrying "2". */
  lemma FruitViews(r: State)
    requires Valid(r) && Mirrored(r) && r.config.tags
    requires |r.catalog| == 2 && r.catalog[0].text == "Apple" && r.catalog[1].text == "Banana"
    requires r.catalog[0].id == "1" && r.catalog[1].id == "2"
    requires forall y :: y in r.selection.ids <==> y == "2"
    ensures r.selection.ids == ["2"]
    ensures r.tags == map["Banana" := "2"]
    ensures FormValue(r, "fruit") == [("fruit", "2")]
  {
    NoDupOnly(r.selection.ids, "2");
    assert "Banana" in r.tags;
    forall l | l in r.tags
      ensures l == "Banana" && r.tags[l] == "2"
    {
      var k := IndexOfId(r.catalog, r.tags[l]);
      assert r.catalog[k].text == l;
      assert l != "Apple";
    }
    assert r.tags.Keys == {"Banana"};
    var f := FormValue(r, "fruit");
    assert |f| == 1 && f[0] == ("fruit", "2");
  }

  /** Toggling "1", then "2", then "1" again, starting from nothing, leaves
      exactly "2". */
  lemma OneTwoOne(a: seq<Id>, b: seq<Id>, c: seq<Id>, d: seq<Id>)
    requires a == []
    requires ("1" in b <==> "1" !in a) && forall y :: y != "1" ==> (y in b <==> y in a)
    requires ("2" in c <==> "2" !in b) && forall y :: y != "2" ==> (y in c <==> y in b)
    requires ("1" in d <==> "1" !in c) && forall y :: y != "1" ==> (y in d <==> y in c)
    ensures forall y :: y in d <==> y == "2"
  {
    assert "2" in d by { assert "2" in c; }
    assert "1" !in d by { assert "1" in c; }
  }

  /** From "Apple" and "Banana" with nothing selected: selecting "1", then
      "2", then "1" again leaves "2" selected and exactly the tag "Banana". */
  lemma ClicksFromEmpty(s: State)
    requires Valid(s) && Mirrored(s) && s.config.multiple && s.config.tags
    requires s.catalog == [OptionData("1", "Apple", false), OptionData("2", "Banana", false)]
    requires s.selection.ids == []
    ensures var r := HandleOptionClick(HandleOptionClick(HandleOptionClick(s, "1"), "2"), "1");
      && r.selection.ids == ["2"]
      && r.tags == map["Banana" := "2"]
      && FormValue(r, "fruit") == [("fruit", "2")]
  {
    assert Ids(s.catalog) == ["1", "2"];
    var s1 := HandleOptionClick(s, "1");
    FruitClick(s, "1");
    var s2 := HandleOptionClick(s1, "2");
    FruitClick(s1, "2");
    var r := HandleOptionClick(s2, "1");
    FruitClick(s2, "1");
    OneTwoOne(s.selection.ids, s1.selection.ids, s2.selection.ids, r.selection.ids);
    assert r.catalog[0].id == "1" && r.catalog[1].id == "2" by {
      assert Ids(r.catalog) == ["1", "2"];
    }
    FruitViews(r);
  }

  /** Scenario of a tag-enabled multiple combobox: three clicks after
      connecting leave "2" selected, one tag, and one form entry. */
  lemma ClickOneTwoOne(config: Config)
    requires config.multiple && config.tags
    ensures var s0 := Connect(config, [Entry("LI", "1", "Apple", None), Entry("LI", "2", "Banana", None)]);
      && s0.Ok?
      && var r := HandleOptionClick(HandleOptionClick(HandleOptionClick(s0.value, "1"), "2"), "1");
      && r.selection.ids == ["2"]
      && r.tags == map["Banana" := "2"]
      && FormValue(r, "fruit") == [("fruit", "2")]
  {
    ConnectFruitsMultiple(config);
    ClicksFromEmpty(Connect(config, [Entry("LI", "1", "Apple", None), Entry("LI", "2", "Banana", None)]).value);
  }
}

=== FILE: selection.dfy ===
/** The selection manager: the `selectedOptions` map (kept as its key order,
    which is the order `formValue` iterates in) together with the
    `selectedOption` field that single mode maintains beside it, and
    `updateSelectedOptions` (combobox.js:616-629). */
module Selection {
  import opened Base
  import opened Catalog

  /** `ids`: the keys of `selectedOptions` in insertion order.
      `sole`: the `selectedOption` field. */
  datatype Selection = Selection(ids: seq<Id>, sole: Option<Id>)

  const Empty: Selection := Selection([], None)

  /** Single mode's shape: at most one selected id, and `sole` names it. */
  predicate SingleShape(sel: Selection) {
    && |sel.ids| <= 1
    && sel.sole == (if |sel.ids| == 0 then None else Some(sel.ids[0]))
  }

  /** `updateSelectedOptions(option)`: no option clears the selection; an
      unselected option is added (after clearing everything in single mode);
      a selected option is removed. */
  function Update(sel: Selection, multiple: bool, option: Option<Id>): (r: Selection)
    ensures option.None? ==> r == Empty
    ensures option.Some? && option.value !in sel.ids ==>
      && option.value in r.ids
      && (multiple ==> r.ids[..|r.ids| - 1] == sel.ids && r.sole == sel.sole)
      && (!multiple ==> r.ids == [option.value] && r.sole == option)
    ensures option.Some? && option.value in sel.ids ==>
      && option.value !in r.ids
      && r.sole.None?
      && IsSubsequence(r.ids, sel.ids)
      && forall y :: y != option.value ==> (y in r.ids <==> y in sel.ids)
    ensures NoDup(sel.ids) ==> NoDup(r.ids)
    ensures !multiple && SingleShape(sel) ==> SingleShape(r)
    ensures multiple && sel.sole.None? ==> r.sole.None?
  {
    match option
    case None => Empty
    case Some(x) =>
      if x !in sel.ids then
        if multiple then Selection(sel.ids + [x], sel.sole)
        else Selection([x], Some(x))
      else
        var rest := Remove(sel.ids, x);
        assert NoDup(sel.ids) ==> NoDup(rest) by {
          if NoDup(sel.ids) { SubsequenceNoDup(rest, sel.ids); }
        }
        Selection(rest, None)
  }
  /** In multiple mode, adding an option leaves the membership of every
      other option as it was. */
  lemma UpdateAddsOne(sel: Selection, x: Id)
    requires x !in sel.ids
    ensures forall y :: y != x ==> (y in Update(sel, true, Some(x)).ids <==> y in sel.ids)
  {
    assert Update(sel, true, Some(x)).ids == sel.ids + [x];
  }

  /** In multiple mode an update toggles exactly the option given: its
      membership flips and every other option's stays. */
  lemma MultipleToggles(sel: Selection, x: Id)
    ensures x in Update(sel, true, Some(x)).ids <==> x !in sel.ids
    ensures forall y :: y != x ==> (y in Update(sel, true, Some(x)).ids <==> y in sel.ids)
  {
    if x !in sel.ids { UpdateAddsOne(sel, x); }
  }

  /** In multiple mode, toggling an option twice restores the selection,
      order included. */
  lemma MultipleToggleTwice(sel: Selection, x: Id)
    requires x !in sel.ids && sel.sole.None?
    ensures Update(Update(sel, true, Some(x)), true, Some(x)) == sel
  {
    RemoveAppended(sel.ids, x);
  }

  /** In single mode, toggling an unselected option twice leaves nothing
      selected: the first toggle dropped the previous selection. */
  lemma SingleToggleTwice(sel: Selection, x: Id)
    requires SingleShape(sel) && x !in sel.ids
    ensures Update(Update(sel, false, Some(x)), false, Some(x)) == Empty
  {
  }
}

=== FILE: tags.dfy ===
/** The tag synchroniser: the `tags` map from a label to its tag, the tag
    being represented by the option id stored on its delete button
    (`dataset.key`), and `setTag` (combobox.js:732-755). */
module Tags {
  import opened Base
  import opened Catalog

  type TagMap = map<string, Id>

  /** `setTag(value, key, force)`: nothing when tags are off; otherwise
      `force = true` adds the tag if it is missing, `force = false` removes it
      if present, and an absent `force` toggles it. Other labels' tags are
      never touched. */
  function SetTag(enabled: bool, tags: TagMap, text: string, key: Id, force: Option<bool>): (r: TagMap)
    ensures !enabled ==> r == tags
    ensures enabled && force == Some(true) ==>
      text in r && (text in tags ==> r[text] == tags[text]) && (text !in tags ==> r[text] == key)
    ensures enabled && force == Some(false) ==> text !in r
    ensures enabled && force.None? ==> (text in r <==> text !in tags) && (text in r ==> r[text] == key)
    ensures forall l :: l != text ==> (l in r <==> l in tags) && (l in r ==> r[l] == tags[l])
  {
    if !enabled then tags
    else match force
      case Some(true) => if text !in tags then tags[text := key] else tags
      case Some(false) => if text in tags then tags - {text} else tags
      case None => if text in tags then tags - {text} else tags[text := key]
  }

  /** Forcing a tag on twice leaves exactly the one tag the first call made. */
  lemma ForceOnIdempotent(enabled: bool, tags: TagMap, text: string, key: Id, key': Id)
    ensures SetTag(enabled, SetTag(enabled, tags, text, key, Some(true)), text, key', Some(true))
         == SetTag(enabled, tags, text, key, Some(true))
  {
  }

  /** Forcing a missing tag off changes nothing. */
  lemma ForceOffMissing(enabled: bool, tags: TagMap, text: string, key: Id)
    requires text !in tags
    ensures SetTag(enabled, tags, text, key, Some(false)) == tags
  {
  }

  /** Toggling twice restores the set of tagged labels; the tag itself is
      recreated with the second call's key when it existed before. */
  lemma ToggleTwice(enabled: bool, tags: TagMap, text: string, key: Id)
    ensures SetTag(enabled, SetTag(enabled, tags, text, key, None), text, key, None).Keys == tags.Keys
    ensures text !in tags ==> SetTag(enabled, SetTag(enabled, tags, text, key, None), text, key, None) == tags
  {
    if enabled && text !in tags {
      assert tags[text := key] - {text} == tags;
    }
  }
}

=== FILE: text.dfy ===
/** Text utilities of the combobox: JavaScript's notion of white space,
    `String.prototype.includes`, the search normaliser and the
    printable-key test of the keyboard handler.

    The engine itself never calls `Normalize` below: it takes the normaliser
    as a parameter, so every property proved about filtering holds for any
    normaliser. `Normalize` is a concrete approximation of the source's
    `normalizeString` (combobox.js:416-431) that covers what can be written
    down without Unicode tables: lower-casing of ASCII letters and of the two
    ligatures, JavaScript's `trim`, and the explicit `œ`/`æ` expansions. */
module Text {

  /** Characters matched by JavaScript's `\s` and removed by `trim`
      (WhiteSpace and LineTerminator of ECMA-262). */
  predicate IsJsWhitespace(c: char) {
    || c == '\t' || c == '\n' || c == '\U{B}' || c == '\U{C}' || c == '\r'
    || c == ' ' || c == '\U{A0}' || c == '\U{1680}'
    || ('\U{2000}' <= c <= '\U{200A}')
    || c == '\U{2028}' || c == '\U{2029}' || c == '\U{202F}' || c == '\U{205F}'
    || c == '\U{3000}' || c == '\U{FEFF}'
  }

  // ---------------------------------------------------------------------------
  // Substring containment
  // ---------------------------------------------------------------------------

  /** `hay.includes(needle)`. */
  predicate Includes(hay: string, needle: string)
    decreases |hay|
  {
    needle <= hay || (|hay| > 0 && Includes(hay[1..], needle))
  }

  ghost predicate OccursAt(hay: string, needle: string, i: int) {
    0 <= i && i + |needle| <= |hay| && hay[i..i + |needle|] == needle
  }

  /** `Includes` holds exactly when the needle occurs at some position. */
  lemma {:induction false} IncludesIff(hay: string, needle: string)
    ensures Includes(hay, needle) <==> exists i :: OccursAt(hay, needle, i)
    decreases |hay|
  {
    if needle <= hay {
      assert OccursAt(hay, needle, 0);
    } else if |hay| == 0 {
      assert forall i :: !OccursAt(hay, needle, i);
    } else {
      IncludesIff(hay[1..], needle);
      if exists i :: OccursAt(hay[1..], needle, i) {
        var i :| OccursAt(hay[1..], needle, i);
        assert hay[i + 1..i + 1 + |needle|] == hay[1..][i..i + |needle|];
        assert OccursAt(hay, needle, i + 1);
      }
      forall i | OccursAt(hay, needle, i)
        ensures OccursAt(hay[1..], needle, i - 1)
      {
        assert i != 0;
        assert hay[1..][i - 1..i - 1 + |needle|] == hay[i..i + |needle|];
      }
    }
  }

  /** A needle whose first character the text lacks does not occur in it. */
  lemma {:induction false} IncludesNeedsFirst(hay: string, needle: string)
    requires |needle| > 0 && forall i :: 0 <= i < |hay| ==> hay[i] != needle[0]
    ensures !Includes(hay, needle)
    decreases |hay|
  {
    if |hay| > 0 {
      assert hay[0] != needle[0];
      IncludesNeedsFirst(hay[1..], needle);
    }
  }

  /** The empty needle occurs in every text, so an empty search matches all. */
  lemma IncludesEmpty(hay: string)
    ensures Includes(hay, "")
  {
  }

  // ---------------------------------------------------------------------------
  // Normalisation
  // ---------------------------------------------------------------------------

  /** `toLowerCase` on the characters the model knows: ASCII letters and the
      two ligatures that the normaliser expands. */
  function LowerChar(c: char): (r: char)
    ensures !IsUpper(r)
    ensures !IsUpper(c) ==> r == c
    ensures 'A' <= c <= 'Z' ==> 'a' <= r <= 'z' && r as int - 'a' as int == c as int - 'A' as int
    ensures c == '\U{152}' ==> r == '\U{153}'
    ensures c == '\U{C6}' ==> r == '\U{E6}'
  {
    if 'A' <= c <= 'Z' then (c as int + 32) as char
    else if c == '\U{152}' then '\U{153}'   // Œ -> œ
    else if c == '\U{C6}' then '\U{E6}'     // Æ -> æ
    else c
  }

  /** The characters `LowerChar` changes. */
  predicate IsUpper(c: char) {
    ('A' <= c <= 'Z') || c == '\U{152}' || c == '\U{C6}'
  }

  predicate IsLigature(c: char) {
    c == '\U{153}' || c == '\U{E6}'
  }

  function Lower(s: string): (r: string)
    ensures |r| == |s|
    ensures forall i :: 0 <= i < |s| ==> r[i] == LowerChar(s[i])
    ensures forall i :: 0 <= i < |r| ==> !IsUpper(r[i])
    ensures (forall i :: 0 <= i < |s| ==> !IsUpper(s[i])) ==> r == s
  {
    seq(|s|, i requires 0 <= i < |s| => LowerChar(s[i]))
  }

  function TrimStart(s: string): (r: string)
    ensures |r| <= |s| && r == s[|s| - |r|..]
    ensures forall j :: 0 <= j < |s| - |r| ==> IsJsWhitespace(s[j])
    ensures |r| > 0 ==> !IsJsWhitespace(r[0])
    decreases |s|
  {
    if |s| > 0 && IsJsWhitespace(s[0]) then TrimStart(s[1..]) else s
  }

  function TrimEnd(s: string): (r: string)
    ensures |r| <= |s| && r == s[..|r|]
    ensures forall j :: |r| <= j < |s| ==> IsJsWhitespace(s[j])
    ensures |r| > 0 ==> !IsJsWhitespace(r[|r| - 1])
    decreases |s|
  {
    if |s| > 0 && IsJsWhitespace(s[|s| - 1]) then TrimEnd(s[..|s| - 1]) else s
  }

  /** `r` is the piece of `s` at position `k`, and everything of `s` before
      and after that piece is white space. */
  ghost predicate TrimmedAt(s: string, r: string, k: int) {
    && OccursAt(s, r, k)
    && (forall j :: 0 <= j < k ==> IsJsWhitespace(s[j]))
    && (forall j :: k + |r| <= j < |s| ==> IsJsWhitespace(s[j]))
  }

  /** `String.prototype.trim`: the text with leading and trailing white space
      removed; only white space is dropped, and what remains is a contiguous
      piece of the input. */
  function Trim(s: string): (r: string)
    ensures exists k :: TrimmedAt(s, r, k)
    ensures |r| > 0 ==> !IsJsWhitespace(r[0]) && !IsJsWhitespace(r[|r| - 1])
    ensures |s| > 0 && !IsJsWhitespace(s[0]) && !IsJsWhitespace(s[|s| - 1]) ==> r == s
  {
    var t := TrimStart(s);
    var r := TrimEnd(t);
    assert TrimmedAt(s, r, |s| - |t|);
    r
  }

  /** The replacement applied to one character by the `œ`/`æ` expansion. */
  function Expand(c: char): (r: string)
    ensures c == '\U{153}' ==> r == "oe"
    ensures c == '\U{E6}' ==> r == "ae"
    ensures !IsLigature(c) ==> r == [c]
  {
    if c == '\U{153}' then "oe"
    else if c == '\U{E6}' then "ae"
    else [c]
  }

  /** The ligature branch of the replacement at combobox.js:421-430, applied
      to every character; its `\p{Diacritic}` deletion is not modelled. */
  function ExpandLigatures(s: string): (r: string)
    ensures forall i :: 0 <= i < |r| ==> !IsLigature(r[i])
    ensures (forall i :: 0 <= i < |s| ==> !IsLigature(s[i])) ==> r == s
    decreases |s|
  {
    if |s| == 0 then ""
    else
      var rest := ExpandLigatures(s[1..]);
      assert (forall i :: 0 <= i < |s| ==> !IsLigature(s[i])) ==> [s[0]] + s[1..] == s;
      Expand(s[0]) + rest
  }

  /** The expansion works character by character: it maps one character
      to its replacement and distributes over concatenation. */
  lemma {:induction false} ExpandLigaturesAppend(a: string, b: string)
    ensures ExpandLigatures(a + b) == ExpandLigatures(a) + ExpandLigatures(b)
    decreases |a|
  {
    if |a| > 0 {
      assert (a + b)[0] == a[0];
      assert (a + b)[1..] == a[1..] + b;
      ExpandLigaturesAppend(a[1..], b);
    } else {
      assert a + b == b;
    }
  }

  lemma ExpandLigaturesSingle(c: char)
    ensures ExpandLigatures([c]) == Expand(c)
  {
    assert [c][1..] == [];
  }

  /** The expansion introduces no upper case, and the last character of the
      result comes from the expansion of the last character of the input. */
  lemma {:induction false} ExpandLigaturesChars(s: string)
    requires forall i :: 0 <= i < |s| ==> !IsUpper(s[i])
    ensures forall i :: 0 <= i < |ExpandLigatures(s)| ==> !IsUpper(ExpandLigatures(s)[i])
    ensures |s| > 0 ==> (|ExpandLigatures(s)| > 0 &&
      ExpandLigatures(s)[|ExpandLigatures(s)| - 1] == Expand(s[|s| - 1])[|Expand(s[|s| - 1])| - 1])
    decreases |s|
  {
    if |s| > 0 {
      var rest := ExpandLigatures(s[1..]);
      var e := Expand(s[0]);
      assert ExpandLigatures(s) == e + rest;
      assert forall i :: 0 <= i < |e| ==> !IsUpper(e[i]);
      ExpandLigaturesChars(s[1..]);
      if |s| > 1 {
        assert s[|s| - 1] == s[1..][|s[1..]| - 1];
      }
    }
  }

  /** The expansion of a non-blank character begins and ends non-blank. */
  lemma ExpandEnds(c: char)
    requires !IsJsWhitespace(c)
    ensures |Expand(c)| > 0
    ensures !IsJsWhitespace(Expand(c)[0]) && !IsJsWhitespace(Expand(c)[|Expand(c)| - 1])
  {
  }

  /** Expanding a trimmed, lower-cased text yields a normalised text. */
  lemma ExpandLigaturesShape(s: string)
    requires forall i :: 0 <= i < |s| ==> !IsUpper(s[i])
    requires |s| > 0 ==> !IsJsWhitespace(s[0]) && !IsJsWhitespace(s[|s| - 1])
    ensures Normalized(ExpandLigatures(s))
  {
    ExpandLigaturesChars(s);
    if |s| > 0 {
      var r := ExpandLigatures(s);
      assert r == Expand(s[0]) + ExpandLigatures(s[1..]);
      ExpandEnds(s[0]);
      ExpandEnds(s[|s| - 1]);
      assert r[0] == Expand(s[0])[0];
    }
  }

  /** A normalised text: no upper case (as far as `LowerChar` knows), no
      ligature, no white space at either end. */
  predicate Normalized(n: string) {
    && (forall i :: 0 <= i < |n| ==> !IsUpper(n[i]) && !IsLigature(n[i]))
    && (|n| > 0 ==> !IsJsWhitespace(n[0]) && !IsJsWhitespace(n[|n| - 1]))
  }

  /** The source's order: lower-case, trim, then the ligature replacement. */
  function Normalize(s: string): (r: string)
    ensures Normalized(r)
  {
    var l := Lower(s);
    var t := Trim(l);
    assert forall i :: 0 <= i < |t| ==> !IsUpper(t[i]) by {
      var k :| TrimmedAt(l, t, k);
      forall i | 0 <= i < |t| ensures !IsUpper(t[i]) {
        assert t[i] == l[k + i];
      }
    }
    ExpandLigaturesShape(t);
    ExpandLigatures(t)
  }

  /** Already normalised text is a fixed point of this normaliser. (The
      source's NFKD step can undo this: it turns "ℌ" into "H".) */
  lemma NormalizeFixesNormalized(n: string)
    requires Normalized(n)
    ensures Normalize(n) == n
  {
  }

  /** Normalising twice is normalising once with this normaliser, so a
      normalised search text compares against normalised labels consistently.
      The source's `normalizeString` lacks this property, because NFKD runs
      after `trim`: "´" becomes " ", which becomes "". */
  lemma NormalizeIdempotent(s: string)
    ensures Normalize(Normalize(s)) == Normalize(s)
  {
    NormalizeFixesNormalized(Normalize(s));
  }

  /** A text made only of white space normalises to the empty text. */
  lemma NormalizeBlank(s: string)
    requires forall i :: 0 <= i < |s| ==> IsJsWhitespace(s[i])
    ensures Normalize(s) == ""
  {
    assert Lower(s) == s;
    assert TrimStart(s) == "";
    assert Trim(s) == "";
  }

  /** The source's special cases: the ligatures expand to two letters, and the
      empty text stays empty, so an empty search text matches every label. */
  lemma NormalizeLigatures()
    ensures Normalize("\U{152}uvre") == "oeuvre"
    ensures Normalize("") == ""
  {
    LowerOeuvre();
    TrimOeuvre();
    ExpandOeuvre();
  }

  lemma LowerOeuvre()
    ensures Lower("\U{152}uvre") == "\U{153}uvre"
  {
    var l := Lower("\U{152}uvre");
    assert |l| == 5;
    assert l[0] == '\U{153}' && l[1] == 'u' && l[2] == 'v' && l[3] == 'r' && l[4] == 'e';
  }

  lemma TrimOeuvre()
    ensures Trim("\U{153}uvre") == "\U{153}uvre"
  {
    var l := "\U{153}uvre";
    assert !IsJsWhitespace(l[0]) && !IsJsWhitespace(l[4]);
  }

  lemma ExpandOeuvre()
    ensures ExpandLigatures("\U{153}uvre") == "oeuvre"
  {
    assert ExpandLigatures("uvre") == "uvre";
  }

  // ---------------------------------------------------------------------------
  // Keys
  // ---------------------------------------------------------------------------

  /** `isPrintableCharacter`: `str.length === 1 && str.match(/\S| /)`. The
      length is counted in UTF-16 code units, so a character outside the
      Basic Multilingual Plane (two code units) is not printable. */
  predicate IsPrintableCharacter(key: string) {
    |key| == 1 && (key[0] as int) < 0x1_0000 && (!IsJsWhitespace(key[0]) || key[0] == ' ')
  }
}
